=== FILE: README.md ===
# autoppa core in Dafny

autoppa is an agent for optimising the power, performance and area (PPA) of
Verilog RTL designs. It wraps three tools:

- Icarus Verilog for simulation, reporting execution time;
- Yosys for synthesis, reporting the number of cells;
- OpenSTA for power analysis, reporting total power.

The wrappers read their metric out of each tool's text output and turn the outcome into
a report string for a language model. The model receives a prompt built from
the benchmark task. A Streamlit front end groups the streamed messages into
chat entries.

This project models the deterministic core of that system:

- **Report-text parsers** with Python `re.search` leftmost-match semantics:
  - the module-name scanner (`Verilog`);
  - the time and pass/fail scanners (`Sim`);
  - the cell-count scanner (`Synth`);
  - the `Total`-line selector of the power table (`Power`).
- **Outcome decisions** of `sim`, `synth` and `power`, as pure functions from tool outcomes to
  a report or an error (`Sim.Simulate`, `Synth.Synthesize`, `Power.AnalyzePower`).
  - Each external process is a `Run` value: `Completed(output)` or `Errored(output)`. The latter is a
    non-zero exit, i.e. `CalledProcessError`.
  - Each file-existence check is a boolean.
  - Each file read is an `Option` (`None` when the file is missing).
- **The `LLM` message log and the task prompt** (`Agent`). The model's answer is an
  uninterpreted `Oracle`, a function of the model name and the messages sent.
  autoppa only writes the prompt. `Agent.ParsePrompt` reads one back at its titles; it is
  not part of autoppa and exists so that the prompt's layout can be stated as a round trip.
- **The Streamlit grouping loop, `role_to_emoji` and history display** (`Chat`).
- **Benchmark argument checking and the sim, synth, power sequence** (`Benchmark`).

Shared pieces:

- `Outcomes`: `Option`, `Result`, `Error` and `Run`.
- `Chars`: the whitespace set of Python's `str.isspace`, which `\s` uses on `str`, plus digits and line breaks.
- `Scan`: leftmost search, maximal spans, and one attempt of `kw\s{min,}(\d+)`.
- `Text`: `strip`, `split()`, `splitlines`, `replace` and `str(int)`.

Each Python exception is an `Err` of `Result`. It carries the `Error` constructor that names the raised
condition, and `:-` propagates it the way an uncaught exception propagates.

## Model

| member | source | states |
|---|---|---|
| Scan.FindFirst | autoppa/utils.py:8 | the search returns the least position in the range that matches, and None only when no position matches (the leftmost semantics of `re.search`) |
| Scan.Find | autoppa/sim.py:20-21 | a literal search succeeds exactly when the word occurs, at its leftmost occurrence |
| Scan.SpanWhile | autoppa/utils.py:5 | a greedy run ends at the first character outside the class, and every character before it is in the class |
| Scan.SpanWhileUnique | autoppa/utils.py:5 | a greedy run is determined by its two defining properties |
| Scan.NumberAt | autoppa/sim.py:8 | a successful attempt of `kw\s*(\d+)` / `kw\s+(\d+)` captures a non-empty all-digit string |
| Scan.NumberAtDecomposition | autoppa/sim.py:8 | keyword, enough whitespace, digits, and a non-digit or the end make the attempt succeed with exactly those digits (the digit run is maximal) |
| Scan.NumberAtSound | autoppa/sim.py:8 | conversely, every successful attempt has that shape: keyword, enough whitespace, the captured digits, then a non-digit or the end |
| Scan.SearchNumber | autoppa/sim.py:8-11 | the search fails exactly when every position fails; otherwise it returns the capture of a matching position |
| Text.TrimStart | autoppa/utils.py:12 | left-stripping removes only a leading whitespace prefix and leaves no leading whitespace |
| Text.TrimEnd | autoppa/utils.py:12 | right-stripping removes only a trailing whitespace suffix and leaves no trailing whitespace |
| Text.Strip | autoppa/utils.py:12 | the stripped text has no whitespace at either end and is no longer than the input |
| Text.StripIsSlice | autoppa/power.py:11 | the stripped text is a contiguous slice of the input |
| Text.StripNoSpace | autoppa/utils.py:12 | stripping a text without whitespace changes nothing |
| Text.Fields | autoppa/power.py:12 | `split()` gives non-empty fields with no whitespace |
| Text.FieldsUnwords | autoppa/power.py:12 | splitting undoes joining non-empty whitespace-free words with single spaces |
| Text.FieldsSpaced | autoppa/power.py:12 | splitting recovers the words whatever whitespace runs separate them, with any leading or trailing whitespace |
| Text.SplitLines | autoppa/power.py:8 | `splitlines()` gives lines without line-break characters |
| Text.SplitLinesTerminated | autoppa/power.py:8 | splitting into lines undoes writing each line followed by a line feed |
| Text.SplitLinesLastUnterminated | autoppa/power.py:8 | a last line without a line break is recovered as a line of its own, and an empty one adds no line |
| Text.Replace | autoppa/power.py:46-47 | text without the pattern is unchanged by `replace` |
| Text.ReplaceFree | autoppa/power.py:46-47 | a prefix in which no occurrence of the pattern starts is kept as it is |
| Text.ReplaceSplice | autoppa/power.py:46-47 | the first occurrence of the pattern becomes the substitute, the text before it is kept, and replacing continues after it |
| Text.ReplaceWhole | autoppa/power.py:46 | a text that is exactly the placeholder becomes exactly the substitute |
| Text.ReplaceSelf | autoppa/power.py:46-47 | replacing a pattern by itself is the identity |
| Text.NatToDecimal | autoppa/power.py:47 | `str(n)` is a non-empty digit string without a leading zero, except for 0 itself |
| Text.IntToDecimal | autoppa/power.py:47 | `str(i)` is non-empty and starts with `-` exactly when `i` is negative (its value is stated by `Text.IntToDecimalValue`) |
| Text.IntToDecimalValue | autoppa/power.py:47 | `str(i)` reads back as `i`: for `i >= 0` all digits with decimal value `i`, for negative `i` a minus sign followed by the digits of `-i`; no leading zero except in `0` |
| Text.DecimalRoundTrip | autoppa/power.py:47 | reading back the decimal text of a natural number yields that number |
| Text.DigitValue | autoppa/power.py:47 | each ASCII digit is the digit character of its value |
| Verilog.ExtractModuleName | autoppa/utils.py:3-12 | the only failure is ModuleNameNotFound (non-emptiness and absence of whitespace in a returned name are stated by `Verilog.HeaderBounds` and `Verilog.ModuleNameSound`) |
| Verilog.HeaderBounds | autoppa/utils.py:5-12 | a returned name sits after leading whitespace, `module` and at least one whitespace character, and ends at whitespace or the end of the text |
| Verilog.ModuleNameSound | autoppa/utils.py:5-12 | every returned name is non-empty, has no whitespace, and comes from a header of that shape at the start of the text |
| Verilog.ResultOfBounds | autoppa/utils.py:5-12 | conversely, such positions in the text determine the returned name |
| Verilog.ModuleNameComplete | autoppa/utils.py:5-12 | every text of the form whitespace, `module`, whitespace, maximal non-whitespace name, rest yields that name, so `module foo(a);` gives `foo(a);` and the final strip is the identity |
| Verilog.NoKeywordFirst | autoppa/utils.py:5-10 | text whose first non-whitespace character is not `m` (a leading comment, say) fails |
| Verilog.KeywordWithoutGap | autoppa/utils.py:5-10 | `module` glued to the next character (`modulefoo`) fails |
| Sim.ExtractPerf | autoppa/sim.py:6-15 | the time is a non-empty digit string captured by a match of `TIME:\s*(\d+)`; TimeNotFound exactly when no position matches |
| Sim.PerfOfFirstTime | autoppa/sim.py:8-11 | the digits after the first `TIME:` and optional whitespace are the result, as a maximal run |
| Sim.ExtractFailedSim | autoppa/sim.py:17-29 | true exactly when FAILED occurs, even alongside PASSED; false exactly when PASSED occurs without FAILED; SimResultNotFound exactly when neither occurs |
| Sim.Simulate | autoppa/sim.py:46-98 | a compile error reports the compilation header plus the output; a simulator error or FAILED reports the simulation header; otherwise the pass report with the time, or the scanner's error propagates |
| Sim.CompileErrorSkipsSimulator | autoppa/sim.py:57-70 | after a compile error the simulator's outcome cannot affect the result |
| Sim.SimulationPassesExactly | autoppa/sim.py:88-97 | the pass report is produced exactly when there is a module name, both steps complete, FAILED is absent, PASSED is present and a time is found |
| Synth.ExtractArea | autoppa/synth.py:8-18 | the area is a non-empty digit string captured by a match of `Number of cells:\s+(\d+)`; AreaNotFound exactly when no position matches |
| Synth.AreaNeedsWhitespace | autoppa/synth.py:11-16 | if no `Number of cells:` is followed by whitespace, there is no area |
| Synth.GluedCountHasNoArea | autoppa/synth.py:11-16 | `Number of cells:12` has no area |
| Synth.Synthesize | autoppa/synth.py:34-61 | a Yosys error reports the synthesis error header plus the output; success reports the area; a missing area propagates AreaNotFound |
| Synth.SynthesisPassesExactly | autoppa/synth.py:51-58 | the pass report is produced exactly when there is a module name, Yosys completes and an area is found |
| Power.FirstTotalLine | autoppa/power.py:10-11 | the selected line is a Total line and no earlier line is; None exactly when no line is a Total line |
| Power.FirstTotalLineOfPrefix | autoppa/power.py:10-14 | appending lines after a Total line does not change which line is first |
| Power.TotalPowerField | autoppa/power.py:8-16 | TotalPowerNotFound exactly when no Total line exists; otherwise the first Total line decides: its fifth field, or PowerFieldMissing when it has fewer than five |
| Power.LaterLinesIgnored | autoppa/power.py:10-14 | lines after the first Total line never affect the result |
| Power.ExtractPower | autoppa/power.py:6-16 | success exactly when the first Total line has a fifth field that converts; the value is that field's conversion; an error of `Power.TotalPowerField` (no Total line, or a short one) is returned as it is, and a field that does not convert gives PowerNotANumber |
| Power.PowerOfTable | autoppa/power.py:8-14 | for an output whose first Total row has at least five cells separated by any whitespace runs (leading and trailing whitespace allowed), the result is the conversion of its fifth cell, whatever lines follow, and whether or not the last line ends with a line break |
| Power.PowerScript | autoppa/power.py:46-47 | a template with neither placeholder is unchanged |
| Power.ModuleNameSubstitutedFirst | autoppa/power.py:46-47 | the module-name placeholder becomes the module name, and a `{TASK_NUM}` inside the name is then substituted too |
| Power.TaskNumberSubstituted | autoppa/power.py:47 | the task placeholder becomes the decimal task number |
| Power.ModuleNameFilledIn | autoppa/power.py:46-47 | in a template whose only module-name placeholder sits between free text, that placeholder becomes the name, and then task placeholders anywhere in the result become the task number; with none, the script is the template with the name filled in |
| Power.TaskNumFilledIn | autoppa/power.py:46-47 | in a template whose only placeholder is one task placeholder, the script is the template with the decimal task number in its place |
| Power.AnalyzePower | autoppa/power.py:31-77 | a missing dump fails before the netlist check, both before the template is read and before OpenSTA runs; an OpenSTA error reports its header plus the output; success reports the power |
| Power.MissingArtifactSkipsOpensta | autoppa/power.py:36-40 | with a missing dump or netlist, the OpenSTA outcome cannot affect the failing result |
| Agent.NewLlm | autoppa/agent.py:34-42 | a fresh log holds exactly one message, the system prompt |
| Agent.Call | autoppa/agent.py:46-57 | a call whose service request returns appends exactly a user message with the argument and an assistant message with the reply, keeps earlier messages, and the model sees the log ending with the user message |
| Agent.Converse | autoppa/agent.py:46-57 | one reply per call, and the log grows by two messages per call (what each reply is, is stated by `Agent.ConverseReplies`) |
| Agent.ConverseExtends | autoppa/agent.py:46-57 | after any calls the log is the old log followed by alternating user and assistant messages, one pair per call, in order |
| Agent.ConverseReplies | autoppa/agent.py:46-57 | the reply to the j-th prompt is the model's answer to the whole log up to and including that prompt, the earlier prompts and replies included |
| Agent.LogShape | autoppa/agent.py:42-57 | a fresh instance's log after any calls starts with the system prompt and has length 1 + 2 × the number of calls |
| Agent.MaxContextLenIgnored | autoppa/agent.py:39 | the stored context length changes neither the replies nor the log |
| Agent.LayoutSections | autoppa/agent.py:72-77 | the prompt's thirteen lines, each ended by a line feed, are the text of a newline followed by the description, metric, baseline code and testbench sections in that order |
| Agent.PromptRoundTrip | autoppa/agent.py:72-77 | reading the prompt back at its titles recovers the description, `baseline units`, the baseline code and the testbench, as long as no free text contains the title of a later section |
| Agent.LayoutRoundTrip | autoppa/agent.py:72-77 | the same for any titles that are non-empty single lines none of which occurs inside an earlier one |
| Agent.PyIndex | autoppa/agent.py:71 | list indexing: a negative index counts from the end, and out-of-range indices fail |
| Agent.AskOnce | autoppa/agent.py:82-84 | a fresh instance called once sends exactly the system prompt and the user prompt, to the default model, and returns the answer |
| Agent.RunAgent | autoppa/agent.py:61-86 | the metadata, baseline and testbench files are needed in that order; task `t` selects entry `t-1` with Python's indexing (task 0 and negative tasks count from the end), failing exactly when `t-1` is outside `-n..n-1` for `n` entries; the reply is the oracle's answer to the system prompt and the task prompt |
| Agent.TaskZeroSelectsLast | autoppa/agent.py:71 | task 0 is not rejected but selects the last metadata entry |
| Chat.RoleToEmoji | streamlit_app.py:14-22 | every role has an icon from the material set |
| Chat.EmojisDistinct | streamlit_app.py:14-22 | the four icons are pairwise distinct |
| Chat.Render | streamlit_app.py:59-62 | assistant text is shown as code and every other role's as plain text, with the text unchanged |
| Chat.Group | streamlit_app.py:83-97 | a message with the last entry's role adds no entry, any other adds one; the last entry then has the message's role |
| Chat.GroupKeepsContents | streamlit_app.py:83-97 | adding a message appends exactly its content to the joined contents |
| Chat.GroupAlternates | streamlit_app.py:83-91 | adding a message keeps adjacent entries' roles distinct |
| Chat.Runs | streamlit_app.py:77-104 | grouping a non-empty stream gives at least one and at most as many entries as messages, the last with the last message's role |
| Chat.RunsRoles | streamlit_app.py:80-91 | every entry of a non-empty stream has a role, and the first entry's is the first message's |
| Chat.SameRoleMerged | streamlit_app.py:80-94 | consecutive messages with one role become a single entry with all their contents |
| Chat.RunsAppend | streamlit_app.py:80-104 | grouping two streams whose boundary messages differ in role is grouping each and joining the results |
| Chat.RunsAlternate | streamlit_app.py:80-91 | adjacent entries never share a role |
| Chat.RunsKeepContents | streamlit_app.py:94-104 | the joined entry contents equal the joined message contents |
| Chat.RunsCount | streamlit_app.py:80-104 | a non-empty stream gives 1 + (number of role changes) entries |
| Chat.GroupStream | streamlit_app.py:70-104 | the loop with its `current_role` and `buffer` computes the grouping; an empty stream gives one entry with no role and empty content |
| Chat.ShowHistory | streamlit_app.py:55-62 | the history displays exactly when every entry has a role, as one box per entry with its role's icon and widget |
| Chat.PersistKeepsHistory | streamlit_app.py:108 | appending new entries does not change how the earlier history is displayed |
| Chat.EmptyStreamBreaksHistory | streamlit_app.py:102-108 | the entry an empty stream persists makes the whole history undisplayable |
| Chat.NewEntries | streamlit_app.py:102-104 | with the correction, an empty stream adds no entries and a non-empty one at most one entry per message |
| Chat.HistoryStaysShowable | streamlit_app.py:55-108 | with the correction, a displayable history stays displayable after every run, and its old part is shown as before |
| Benchmark.ValidateArguments | autoppa/benchmark.py:9-17 | success exactly for task 1..5 and baseline `optimized` or `reference`; the task is checked first; the index is task − 1, below 5 |
| Benchmark.RunTools | autoppa/benchmark.py:31-35 | reports come in the order sim, synth, power; each step is reached only if the previous returned a report; no error exactly when all three reports are present; when all three tools return reports, the run prints exactly those three, in order, with no error |
| Benchmark.RunBenchmark | autoppa/benchmark.py:6-35 | argument errors come first, then a missing metadata file, then a too-short metadata list, then a missing design file, then the tool sequence |
| Benchmark.CompileErrorStillSynthesizes | autoppa/benchmark.py:31-33 | a design that fails to compile still gets a simulation report and goes on to synthesis |

## Left out

- Processes, Docker, `os.chdir`, `os.makedirs`, `print` and all file writes. A tool run is a given `Run` and a file read is a given `Option`.
- The `debug` printing of commands and outputs, and the banner lines `benchmark` prints.
- Building the Icarus, Yosys and OpenSTA command lines. The `task` argument of `sim` only names the testbench on the command line, so `Sim.Simulate` has no task parameter.
- `Power.ExtractPower`: `float(...) * 1000` formatted with `:.4f` is the parameter `toMilliwatts`. It returns `None` where `float` raises `ValueError`; floating point is not modelled.
- `Scan.NumberAt`: `\d` is ASCII digits only. Python's `\d` on `str` also matches other Unicode decimal digits.
- `Text.Replace`: requires a non-empty pattern. Both patterns used are non-empty placeholders; Python's behaviour for an empty pattern is not modelled.
- JSON parsing of the metadata file. The metadata is given as a list of records; a malformed file or a missing key is not modelled.
- The OpenAI client, `dotenv` and the network. The reply is an `Oracle`.
- Streamlit widgets, caching and session state. The live chat box inside the loop shows `Chat.Render` of the current buffer; only grouping, icons and history display are modelled.
- `Agent`, `Role` and `Message` as used by the front end. `Role` is defined from its uses, as a four-value datatype; the role's `.value` string is not modelled.
- The argparse dispatcher `main.py`.
- `Agent.RunAgent`: the system prompt is a parameter. `agent` always passes the default text `Agent.SystemPrompt`, which `Agent.RunDefaultAgent` supplies. Nothing is proved about the characters of that text.
- `Agent.Call`: a service request that raises is not modelled; the oracle always answers. In the source the user message is appended before the request, so after such an exception the log keeps that user message with no answer.
- `Agent.Call`: the `LLM` instance is a value, not a mutable object. Each call returns the new state along with the reply.

## Findings

| source | as written | input that shows it | evidently intended | confidence | as-written member | corrected member |
|---|---|---|---|---|---|---|
| streamlit_app.py:102-104 | after the loop, the last entry is appended even when no message arrived, with role `None` and empty content | an agent run that streams no messages | record an entry only when a role was seen; otherwise the next rerun's `message["role"].value` fails on `None` | low; not executed | Chat.EmptyStreamBreaksHistory (with Chat.GroupStream) | Chat.HistoryStaysShowable (with Chat.NewEntries) |

=== FILE: agent.dfy ===
/** The language-model side: roles and messages, the append-only message log
    of `LLM`, and the prompt `agent` sends for a benchmark task. The model's
    reply is an uninterpreted function of the model name and the messages sent. */
module Agent {
  import opened Outcomes
  import opened Chars
  import opened Scan
  import opened Text
  import opened Seqs

  /** The four message roles; `streamlit_app.py` switches over all of them. */
  datatype Role = System | User | Assistant | Tool

  datatype Message = Message(role: Role, content: string)

  /** The answer the inference service gives for a model name and the messages sent. */
  type Oracle = (string, seq<Message>) -> string

  /** The default system prompt, surrounding blank lines stripped. */
  const SystemPrompt: string :=
    "You are a Verilog RTL designer that only writes code using correct Verilog syntax based on the optimization task definition.\n" +
    "You will be able to run a simulation and synthesis tool to make sure the design is functionally correct and synthesizable.\n" +
    "If the tools report errors, then debug the Verilog source code and find out the signals/logic that need to be corrected.\n" +
    "Your goal is to improve the baseline metric as much as possible (power, performance, or area).\n" +
    "\n" +
    "Rules:\n" +
    "- Only write the verilog code for the current task.\n" +
    "- A test bench already exists to test the functional correctness. You don't need to generate testbench to test the generated Verilog code.\n" +
    "- You can not modify the testbench.\n" +
    "- Don't use any SystemVerilog constructs - only pure Verilog syntax.\n" +
    "- Don't generate duplicated signal assignments or blocks.\n" +
    "- Define the parameters or signals first before using them. \n" +
    "- for combinational logic, you can use wire assign (i.e., assign wire = a ? 1:0;) or always @(*).\n" +
    "- for combinational logic with an always block do not explicitly specify the sensitivity list; instead use always @(*).\n" +
    "- For 'if' block, you must use begin and end as below.\n" +
    "  if (done) begin\n" +
    "    a = b;\n" +
    "    n = q;\n" +
    "  end"

  const DefaultMaxContextLen: int := 1000
  const DefaultModel: string := "gpt-5-mini"

  /** The state of an `LLM` instance. `maxContextLen` is kept but never consulted. */
  datatype Llm = Llm(systemPrompt: string, maxContextLen: int, model: string, messages: seq<Message>)

  /** A fresh instance: the log holds the system prompt and nothing else. */
  function NewLlm(systemPrompt: string, maxContextLen: int, model: string): (l: Llm)
    ensures l.messages == [Message(System, systemPrompt)]
    ensures l.systemPrompt == systemPrompt && l.maxContextLen == maxContextLen && l.model == model
  {
    Llm(systemPrompt, maxContextLen, model, [Message(System, systemPrompt)])
  }

  /** The state after a call, and the text the call returns. */
  datatype Exchange = Exchange(llm: Llm, reply: string)

  /** One call: the user message is appended, the whole log (ending with that
      message) is sent, and the answer is appended as an assistant message and
      returned. Nothing already in the log changes. */
  function Call(l: Llm, message: string, oracle: Oracle): (x: Exchange)
    ensures |x.llm.messages| == |l.messages| + 2
    ensures x.llm.messages[..|l.messages|] == l.messages
    ensures x.llm.messages[|l.messages|] == Message(User, message)
    ensures x.llm.messages[|l.messages| + 1] == Message(Assistant, x.reply)
    ensures x.reply == oracle(l.model, x.llm.messages[..|l.messages| + 1])
    ensures x.reply == oracle(l.model, l.messages + [Message(User, message)])
    ensures x.llm.systemPrompt == l.systemPrompt && x.llm.maxContextLen == l.maxContextLen
    ensures x.llm.model == l.model
  {
    var sent := l.messages + [Message(User, message)];
    var answer := oracle(l.model, sent);
    assert (sent + [Message(Assistant, answer)])[..|l.messages| + 1] == sent;
    Exchange(l.(messages := sent + [Message(Assistant, answer)]), answer)
  }

  /** The outcome of several calls in a row. */
  datatype Conversation = Conversation(llm: Llm, replies: seq<string>)

  /** Calls the instance once per prompt, in order. */
  function Converse(l: Llm, prompts: seq<string>, oracle: Oracle): (c: Conversation)
    ensures |c.replies| == |prompts|
    ensures |c.llm.messages| == |l.messages| + 2 * |prompts|
    decreases |prompts|
  {
    if |prompts| == 0 then Conversation(l, [])
    else
      var x := Call(l, prompts[0], oracle);
      var rest := Converse(x.llm, prompts[1..], oracle);
      Conversation(rest.llm, [x.reply] + rest.replies)
  }

  /** `log` is `before` followed by one user message per prompt, each answered
      by an assistant message carrying the corresponding reply. */
  ghost predicate Extends(log: seq<Message>, before: seq<Message>, prompts: seq<string>, replies: seq<string>)
    requires |replies| == |prompts|
  {
    && |log| == |before| + 2 * |prompts|
    && log[..|before|] == before
    && forall j :: 0 <= j < |prompts| ==>
         && log[|before| + 2 * j] == Message(User, prompts[j])
         && log[|before| + 2 * j + 1] == Message(Assistant, replies[j])
  }

  /** A user message and its answer in front of a log that extends the
      messages after them. */
  lemma ExtendsCons(log: seq<Message>, before: seq<Message>, p: string, reply: string,
                    prompts: seq<string>, replies: seq<string>)
    requires |replies| == |prompts|
    requires Extends(log, before + [Message(User, p), Message(Assistant, reply)], prompts, replies)
    ensures Extends(log, before, [p] + prompts, [reply] + replies)
  {
    var n := |before|;
    var mid := before + [Message(User, p), Message(Assistant, reply)];
    assert log[..n] == before by {
      assert log[..n] == log[..n + 2][..n];
      assert mid[..n] == before;
    }
    forall j | 0 <= j < |prompts| + 1
      ensures log[n + 2 * j] == Message(User, ([p] + prompts)[j])
      ensures log[n + 2 * j + 1] == Message(Assistant, ([reply] + replies)[j])
    {
      if j == 0 {
        assert log[..n + 2][n] == mid[n];
        assert log[..n + 2][n + 1] == mid[n + 1];
      } else {
        assert n + 2 * j == (n + 2) + 2 * (j - 1);
      }
    }
  }

  /** Each call appends exactly a user message and an assistant message, and
      earlier messages are never changed or removed. */
  lemma {:induction false} ConverseExtends(l: Llm, prompts: seq<string>, oracle: Oracle)
    ensures Extends(Converse(l, prompts, oracle).llm.messages, l.messages, prompts, Converse(l, prompts, oracle).replies)
    ensures Converse(l, prompts, oracle).llm.model == l.model
    decreases |prompts|
  {
    if |prompts| > 0 {
      var x := Call(l, prompts[0], oracle);
      var rest := Converse(x.llm, prompts[1..], oracle);
      ConverseExtends(x.llm, prompts[1..], oracle);
      assert x.llm.messages == l.messages + [Message(User, prompts[0]), Message(Assistant, x.reply)];
      ExtendsCons(rest.llm.messages, l.messages, prompts[0], x.reply, prompts[1..], rest.replies);
      assert [prompts[0]] + prompts[1..] == prompts;
    } else {
      assert Converse(l, prompts, oracle).llm.messages[..|l.messages|] == l.messages;
    }
  }

  /** Each reply is the model's answer to the whole log as it stood when the
      reply was requested: everything before it, ending with its prompt. */
  lemma {:induction false} ConverseReplies(l: Llm, prompts: seq<string>, oracle: Oracle)
    ensures var c := Converse(l, prompts, oracle);
            forall j :: 0 <= j < |prompts| ==>
              |l.messages| + 2 * j + 1 <= |c.llm.messages|
              && c.replies[j] == oracle(l.model, c.llm.messages[..|l.messages| + 2 * j + 1])
    decreases |prompts|
  {
    if |prompts| > 0 {
      var c := Converse(l, prompts, oracle);
      var x := Call(l, prompts[0], oracle);
      var rest := Converse(x.llm, prompts[1..], oracle);
      var n := |l.messages|;
      assert c == Conversation(rest.llm, [x.reply] + rest.replies);
      ConverseReplies(x.llm, prompts[1..], oracle);
      forall j | 0 <= j < |prompts|
        ensures c.replies[j] == oracle(l.model, c.llm.messages[..n + 2 * j + 1])
      {
        if j == 0 {
          FirstReply(l, prompts, oracle);
        } else {
          assert c.replies[j] == rest.replies[j - 1];
          assert |x.llm.messages| + 2 * (j - 1) + 1 == n + 2 * j + 1;
        }
      }
    }
  }

  /** The first reply answers the log as it stood after the first prompt. */
  lemma FirstReply(l: Llm, prompts: seq<string>, oracle: Oracle)
    requires |prompts| > 0
    ensures var c := Converse(l, prompts, oracle);
            && |l.messages| + 1 <= |c.llm.messages|
            && c.replies[0] == oracle(l.model, c.llm.messages[..|l.messages| + 1])
  {
    var x := Call(l, prompts[0], oracle);
    var rest := Converse(x.llm, prompts[1..], oracle);
    var n := |l.messages|;
    ConverseExtends(x.llm, prompts[1..], oracle);
    assert rest.llm.messages[..n + 1] == x.llm.messages[..n + 1] by {
      assert rest.llm.messages[..n + 1] == rest.llm.messages[..n + 2][..n + 1];
    }
  }

  /** A fresh instance after any number of calls: the system prompt first, then
      the prompts and the replies alternating. */
  lemma LogShape(systemPrompt: string, maxContextLen: int, model: string, prompts: seq<string>, oracle: Oracle)
    ensures var c := Converse(NewLlm(systemPrompt, maxContextLen, model), prompts, oracle);
            && |c.llm.messages| == 1 + 2 * |prompts|
            && c.llm.messages[0] == Message(System, systemPrompt)
            && Extends(c.llm.messages, [Message(System, systemPrompt)], prompts, c.replies)
  {
    ConverseExtends(NewLlm(systemPrompt, maxContextLen, model), prompts, oracle);
    var c := Converse(NewLlm(systemPrompt, maxContextLen, model), prompts, oracle);
    assert c.llm.messages[..1][0] == c.llm.messages[0];
  }

  /** The stored context length has no effect on what is sent, logged or returned. */
  lemma {:induction false} MaxContextLenIgnored(l: Llm, n: int, prompts: seq<string>, oracle: Oracle)
    ensures Converse(l.(maxContextLen := n), prompts, oracle).replies == Converse(l, prompts, oracle).replies
    ensures Converse(l.(maxContextLen := n), prompts, oracle).llm.messages == Converse(l, prompts, oracle).llm.messages
    decreases |prompts|
  {
    if |prompts| > 0 {
      var x := Call(l, prompts[0], oracle);
      var y := Call(l.(maxContextLen := n), prompts[0], oracle);
      assert y.llm == x.llm.(maxContextLen := n);
      MaxContextLenIgnored(x.llm, n, prompts[1..], oracle);
    }
  }

  /** The fields of one entry of the task metadata. */
  datatype TaskInfo = TaskInfo(description: string, baseline: string, units: string, metric: string)

  /** The titles of the four sections of a task prompt, in order. */
  datatype Titles = Titles(task: string, metric: string, code: string, testbench: string)

  const TaskTitle: string := "TASK DESCRIPTION:"
  const MetricTitle: string := "BASELINE METRIC:"
  const CodeTitle: string := "BASELINE VERILOG CODE:"
  const TestbenchTitle: string := "TESTBENCH VERILOG CODE:"
  const PromptTitles: Titles := Titles(TaskTitle, MetricTitle, CodeTitle, TestbenchTitle)

  /** The free-text parts of a task prompt: the description, the baseline
      value with its units, the baseline code and the testbench. */
  datatype PromptParts = PromptParts(description: string, metric: string, code: string, testbench: string)

  /** A title line, the content, and a blank line. */
  function Section(title: string, content: string): string {
    title + "\n" + content + "\n\n"
  }

  /** The closing section: a title line, a blank line, and the content. */
  function LastSection(title: string, content: string): string {
    title + "\n\n" + content + "\n"
  }

  /** The lines of a prompt laid out under the given titles: a blank line,
      then each title line followed by its content, the sections separated by
      blank lines and the testbench set off from its title by one. */
  function LaidOutLines(ts: Titles, parts: PromptParts): seq<string> {
    ["", ts.task, parts.description, "", ts.metric, parts.metric, "",
     ts.code, parts.code, "", ts.testbench, "", parts.testbench]
  }

  /** A prompt laid out under the given titles: its lines, each ended by a line feed. */
  function Layout(ts: Titles, parts: PromptParts): string {
    Terminated(LaidOutLines(ts, parts))
  }

  /** A blank line followed by the four sections. */
  function Sectioned(ts: Titles, parts: PromptParts): string {
    "\n" + Section(ts.task, parts.description) + Section(ts.metric, parts.metric)
    + Section(ts.code, parts.code) + LastSection(ts.testbench, parts.testbench)
  }

  /** The laid-out prompt is a blank line followed by its four sections. */
  lemma LayoutSections(ts: Titles, parts: PromptParts)
    ensures Layout(ts, parts) == Sectioned(ts, parts)
  {
    var l1 := ["", ts.task, parts.description, ""];
    var l2 := [ts.metric, parts.metric, ""];
    var l3 := [ts.code, parts.code, ""];
    var l4 := [ts.testbench, "", parts.testbench];
    assert LaidOutLines(ts, parts) == l1 + l2 + l3 + l4;
    LayoutLines(ts, parts);
    TerminatedAppend(l1 + l2 + l3, l4);
    ClosingSection(ts.testbench, parts.testbench);
  }

  /** The closing section as terminated lines. */
  lemma ClosingSection(title: string, content: string)
    ensures Terminated([title, "", content]) == LastSection(title, content)
  {
    var l := [title, "", content];
    assert l[1..] == ["", content];
    assert l[1..][1..] == [content];
    assert l[1..][1..][1..] == [];
    assert Terminated([content]) == content + "\n";
    assert Terminated(["", content]) == "\n" + content + "\n";
  }

  /** The first user message for a task. */
  function UserPrompt(info: TaskInfo, baselineCode: string, testbenchCode: string): string {
    Layout(PromptTitles, PromptParts(info.description, info.baseline + " " + info.units, baselineCode, testbenchCode))
  }

  /** Reading a prompt laid out under the given titles back: after the opening
      title line, each later title is located at its first occurrence, and a
      section's content is the text between its title line and the blank line
      before the next title. */
  function ParseWith(p: string, ts: Titles): (r: Option<PromptParts>)
    ensures r.Some? ==> StartsWith(p, "\n" + ts.task + "\n")
    ensures r.Some? ==> Contains(p, ts.metric) && Contains(p, ts.code) && Contains(p, ts.testbench)
  {
    if !StartsWith(p, "\n" + ts.task + "\n") then None
    else
      match (Find(p, ts.metric), Find(p, ts.code), Find(p, ts.testbench))
      case (Some(m), Some(c), Some(t)) => Cut(p, ts, m, c, t)
      case _ => None
  }

  /** The parts of a prompt whose later titles start at `m`, `c` and `t`: the
      text after each title line, up to the blank line before the next title
      or the final line feed; nothing when the titles are out of order. */
  function Cut(p: string, ts: Titles, m: nat, c: nat, t: nat): Option<PromptParts> {
    var m0 := m + |ts.metric| + 1;
    var c0 := c + |ts.code| + 1;
    var t0 := t + |ts.testbench| + 2;
    if |ts.task| + 2 <= m - 2 && m0 <= c - 2 && c0 <= t - 2 && t0 <= |p| - 1 then
      Some(PromptParts(p[|ts.task| + 2..m - 2], p[m0..c - 2], p[c0..t - 2], p[t0..|p| - 1]))
    else None
  }

  /** Reading a task prompt back. */
  function ParsePrompt(p: string): (r: Option<PromptParts>)
    ensures r.Some? ==> StartsWith(p, "\n" + TaskTitle + "\n")
    ensures r.Some? ==> Contains(p, MetricTitle) && Contains(p, CodeTitle) && Contains(p, TestbenchTitle)
  {
    ParseWith(p, PromptTitles)
  }

  /** Titles that can be told apart: the later ones are non-empty single
      lines, and none occurs inside an earlier one. */
  ghost predicate Apart(ts: Titles) {
    && |ts.metric| > 0 && |ts.code| > 0 && |ts.testbench| > 0
    && NoLineBreak(ts.metric) && NoLineBreak(ts.code) && NoLineBreak(ts.testbench)
    && !Contains(ts.task, ts.metric)
    && !Contains(ts.task, ts.code) && !Contains(ts.metric, ts.code)
    && !Contains(ts.task, ts.testbench) && !Contains(ts.metric, ts.testbench) && !Contains(ts.code, ts.testbench)
  }

  /** Parts none of which contains the title of a later section. */
  ghost predicate Unambiguous(ts: Titles, parts: PromptParts) {
    && !Contains(parts.description, ts.metric) && !Contains(parts.description, ts.code)
    && !Contains(parts.description, ts.testbench)
    && !Contains(parts.metric, ts.code) && !Contains(parts.metric, ts.testbench)
    && !Contains(parts.code, ts.testbench)
  }

  lemma TitlesApart()
    ensures Apart(PromptTitles)
  {
    TitleLines();
    TaskTitleHasNoMetricTitle();
    LongerNotContained(TaskTitle, CodeTitle);
    LongerNotContained(MetricTitle, CodeTitle);
    LongerNotContained(TaskTitle, TestbenchTitle);
    LongerNotContained(MetricTitle, TestbenchTitle);
    LongerNotContained(CodeTitle, TestbenchTitle);
  }

  lemma TitleLines()
    ensures NoLineBreak(MetricTitle) && NoLineBreak(CodeTitle) && NoLineBreak(TestbenchTitle)
  {
    assert NoLineBreak(MetricTitle);
    assert NoLineBreak(CodeTitle);
  }

  lemma TaskTitleHasNoMetricTitle()
    ensures !Contains(TaskTitle, MetricTitle)
  {
    forall i: nat ensures !OccursAt(TaskTitle, MetricTitle, i) {
      if i + |MetricTitle| <= |TaskTitle| {
        assert TaskTitle[i..i + |MetricTitle|][0] == TaskTitle[i] != 'B';
      }
    }
  }

  /** A text does not contain anything longer than itself. */
  lemma LongerNotContained(s: string, w: string)
    requires |s| < |w|
    ensures !Contains(s, w)
  {
  }

  /** Reading a task prompt back recovers its parts, provided no title occurs
      in the free text that comes before its section. */
  lemma PromptRoundTrip(info: TaskInfo, baselineCode: string, testbenchCode: string)
    requires !Contains(info.description, MetricTitle) && !Contains(info.description, CodeTitle)
             && !Contains(info.description, TestbenchTitle)
    requires !Contains(info.baseline + " " + info.units, CodeTitle)
             && !Contains(info.baseline + " " + info.units, TestbenchTitle)
    requires !Contains(baselineCode, TestbenchTitle)
    ensures ParsePrompt(UserPrompt(info, baselineCode, testbenchCode))
            == Some(PromptParts(info.description, info.baseline + " " + info.units, baselineCode, testbenchCode))
  {
    TitlesApart();
    LayoutRoundTrip(PromptTitles, PromptParts(info.description, info.baseline + " " + info.units, baselineCode, testbenchCode));
  }

  /** Reading a laid-out prompt back under the same titles recovers its parts. */
  lemma LayoutRoundTrip(ts: Titles, parts: PromptParts)
    requires Apart(ts) && Unambiguous(ts, parts)
    ensures ParseWith(Layout(ts, parts), ts) == Some(parts)
  {
    LayoutSections(ts, parts);
    SectionedRoundTrip(ts, parts);
  }

  lemma SectionedRoundTrip(ts: Titles, parts: PromptParts)
    requires Apart(ts) && Unambiguous(ts, parts)
    ensures ParseWith(Sectioned(ts, parts), ts) == Some(parts)
  {
    MetricFound(ts, parts);
    CodeFound(ts, parts);
    TestbenchFound(ts, parts);
    SectionedCut(ts, parts);
    ParseAt(Sectioned(ts, parts), ts, parts, MetricAt(ts, parts), CodeAt(ts, parts), TestbenchAt(ts, parts));
  }

  /** Parsing succeeds with `parts` when the text opens with the task title
      line, the later titles are first found at `m`, `c` and `t`, and cutting
      there gives `parts`. */
  lemma ParseAt(p: string, ts: Titles, parts: PromptParts, m: nat, c: nat, t: nat)
    requires StartsWith(p, "\n" + ts.task + "\n")
    requires Find(p, ts.metric) == Some(m) && Find(p, ts.code) == Some(c) && Find(p, ts.testbench) == Some(t)
    requires Cut(p, ts, m, c, t) == Some(parts)
    ensures ParseWith(p, ts) == Some(parts)
  {
  }

  lemma SectionedCut(ts: Titles, parts: PromptParts)
    ensures var p := Sectioned(ts, parts);
            && StartsWith(p, "\n" + ts.task + "\n")
            && Cut(p, ts, MetricAt(ts, parts), CodeAt(ts, parts), TestbenchAt(ts, parts)) == Some(parts)
  {
    LayoutSlices(ts, parts);
  }

  /** Where the metric, code and testbench titles start in the sectioned prompt. */
  function MetricAt(ts: Titles, parts: PromptParts): nat {
    1 + |Section(ts.task, parts.description)|
  }
  function CodeAt(ts: Titles, parts: PromptParts): nat {
    MetricAt(ts, parts) + |Section(ts.metric, parts.metric)|
  }
  function TestbenchAt(ts: Titles, parts: PromptParts): nat {
    CodeAt(ts, parts) + |Section(ts.code, parts.code)|
  }

  /** Each later title is first found where its section starts. */
  lemma MetricFound(ts: Titles, parts: PromptParts)
    requires Apart(ts) && Unambiguous(ts, parts)
    ensures Find(Sectioned(ts, parts), ts.metric) == Some(MetricAt(ts, parts))
  {
    var a := Section(ts.task, parts.description);
    var b := Section(ts.metric, parts.metric);
    var c := Section(ts.code, parts.code);
    var d := LastSection(ts.testbench, parts.testbench);
    LayoutLines(ts, parts);
    AppendAssoc("\n" + a + b, c, d);
    SectionsStart(ts.metric, parts.metric);
    FoundAfter(TaskLines(ts, parts), b, c + d, ts.metric);
  }
  lemma CodeFound(ts: Titles, parts: PromptParts)
    requires Apart(ts) && Unambiguous(ts, parts)
    ensures Find(Sectioned(ts, parts), ts.code) == Some(CodeAt(ts, parts))
  {
    LayoutLines(ts, parts);
    SectionsStart(ts.code, parts.code);
    NotBeforeCode(ts, parts);
    FoundAfter(TaskLines(ts, parts) + MetricLines(ts, parts), Section(ts.code, parts.code),
               LastSection(ts.testbench, parts.testbench), ts.code);
  }
  lemma TestbenchFound(ts: Titles, parts: PromptParts)
    requires Apart(ts) && Unambiguous(ts, parts)
    ensures Find(Sectioned(ts, parts), ts.testbench) == Some(TestbenchAt(ts, parts))
  {
    var d := LastSection(ts.testbench, parts.testbench);
    LayoutLines(ts, parts);
    SectionsStart(ts.testbench, parts.testbench);
    NotBeforeTestbench(ts, parts);
    assert Sectioned(ts, parts) == Sectioned(ts, parts) + "";
    FoundAfter(TaskLines(ts, parts) + MetricLines(ts, parts) + CodeLines(ts, parts), d, "", ts.testbench);
  }

  /** A title that opens the text right after some terminated lines, none of
      which contains it and the last of which is empty, is first found there. */
  lemma FoundAfter(lines: seq<string>, sec: string, rest: string, title: string)
    requires |lines| > 0 && lines[|lines| - 1] == "" && NoneContains(lines, title)
    requires |title| > 0 && NoLineBreak(title) && |title| <= |sec| && sec[..|title|] == title
    ensures Find(Terminated(lines) + sec + rest, title) == Some(|Terminated(lines)|)
  {
    var pre := Terminated(lines);
    var p := pre + sec + rest;
    var k := |pre|;
    assert p[..k] == pre;
    assert p[k..k + |sec|] == sec;
    TitleFound(p, k, lines, title, sec);
  }

  /** The lines of the prompt up to the metric title, and the metric and code sections' lines. */
  function TaskLines(ts: Titles, parts: PromptParts): seq<string> {
    ["", ts.task, parts.description, ""]
  }
  function MetricLines(ts: Titles, parts: PromptParts): seq<string> {
    [ts.metric, parts.metric, ""]
  }
  function CodeLines(ts: Titles, parts: PromptParts): seq<string> {
    [ts.code, parts.code, ""]
  }

  /** No line before a title's own line contains that title (for the metric title Dafny sees it
      unaided). */
  lemma NotBeforeCode(ts: Titles, parts: PromptParts)
    requires Apart(ts) && Unambiguous(ts, parts)
    ensures NoneContains(TaskLines(ts, parts) + MetricLines(ts, parts), ts.code)
  {
    NoneContainsAppend(TaskLines(ts, parts), MetricLines(ts, parts), ts.code);
  }
  lemma NotBeforeTestbench(ts: Titles, parts: PromptParts)
    requires Apart(ts) && Unambiguous(ts, parts)
    ensures NoneContains(TaskLines(ts, parts) + MetricLines(ts, parts) + CodeLines(ts, parts), ts.testbench)
  {
    NoneContainsAppend(TaskLines(ts, parts), MetricLines(ts, parts), ts.testbench);
    NoneContainsAppend(TaskLines(ts, parts) + MetricLines(ts, parts), CodeLines(ts, parts), ts.testbench);
  }

  /** Both kinds of section start with their title. */
  lemma SectionsStart(title: string, content: string)
    ensures |title| <= |Section(title, content)| && Section(title, content)[..|title|] == title
    ensures |title| <= |LastSection(title, content)| && LastSection(title, content)[..|title|] == title
  {
    assert Section(title, content) == title + ("\n" + content + "\n\n");
    assert LastSection(title, content) == title + ("\n\n" + content + "\n");
  }

  /** The text before the metric, code and testbench titles, as terminated
      lines: the opening blank line, then the sections before that title. */
  lemma LayoutLines(ts: Titles, parts: PromptParts)
    ensures var l1 := TaskLines(ts, parts);
            var l2 := MetricLines(ts, parts);
            var l3 := CodeLines(ts, parts);
            var a := Section(ts.task, parts.description);
            var b := Section(ts.metric, parts.metric);
            var c := Section(ts.code, parts.code);
            && Terminated(l1) == "\n" + a
            && Terminated(l1 + l2) == "\n" + a + b
            && Terminated(l1 + l2 + l3) == "\n" + a + b + c
  {
    var l1 := TaskLines(ts, parts);
    var l2 := MetricLines(ts, parts);
    var l3 := CodeLines(ts, parts);
    TerminatedAppend([""], [ts.task, parts.description, ""]);
    assert [""] + [ts.task, parts.description, ""] == l1;
    TitledSection(ts.task, parts.description);
    TitledSection(ts.metric, parts.metric);
    TitledSection(ts.code, parts.code);
    TerminatedAppend(l1, l2);
    TerminatedAppend(l1 + l2, l3);
  }

  /** A section as terminated lines. */
  lemma TitledSection(title: string, content: string)
    ensures Terminated([title, content, ""]) == Section(title, content)
  {
    var l := [title, content, ""];
    assert l[1..] == [content, ""];
    assert l[1..][1..] == [""];
    assert l[1..][1..][1..] == [];
    assert Terminated([""]) == "\n";
  }

  /** A title that starts a section placed just after terminated lines, none
      of which contains the title, is found there first. */
  lemma TitleFound(p: string, k: nat, lines: seq<string>, title: string, sec: string)
    requires 0 < k && k + |sec| <= |p| && p[..k] == Terminated(lines) && p[k..k + |sec|] == sec
    requires |title| <= |sec| && sec[..|title|] == title
    requires |title| > 0 && NoLineBreak(title)
    requires NoneContains(lines, title)
    requires |lines| > 0 && lines[|lines| - 1] == ""
    ensures Find(p, title) == Some(k)
  {
    Within(p, k, sec, 0, |title|);
    assert OccursAt(p, title, k);
    NotInTerminated(lines, title);
    TerminatedEndsLine(lines);
    assert p[k - 1] == p[..k][k - 1];
    FindAtLineStart(p, k, title);
  }

  /** Terminated lines end with a line feed. */
  lemma TerminatedEndsLine(lines: seq<string>)
    requires |lines| > 0
    ensures var x := Terminated(lines); |x| > 0 && x[|x| - 1] == '\n'
  {
    var n := |lines| - 1;
    TerminatedAppend(lines[..n], [lines[n]]);
    assert lines[..n] + [lines[n]] == lines;
    assert [lines[n]][1..] == [];
  }

  /** Where each part lies in a laid-out prompt. */
  lemma LayoutSlices(ts: Titles, parts: PromptParts)
    ensures var p := Sectioned(ts, parts);
            var m := 1 + |Section(ts.task, parts.description)|;
            var c := m + |Section(ts.metric, parts.metric)|;
            var t := c + |Section(ts.code, parts.code)|;
            && |p| == t + |LastSection(ts.testbench, parts.testbench)|
            && StartsWith(p, "\n" + ts.task + "\n")
            && p[|ts.task| + 2..m - 2] == parts.description
            && p[m + |ts.metric| + 1..c - 2] == parts.metric
            && p[c + |ts.code| + 1..t - 2] == parts.code
            && p[t + |ts.testbench| + 2..|p| - 1] == parts.testbench
  {
    HeadSlices(ts, parts);
    TailSlices(ts, parts);
  }

  /** The opening title line, the description and the metric in a laid-out prompt. */
  lemma HeadSlices(ts: Titles, parts: PromptParts)
    ensures var p := Sectioned(ts, parts);
            var m := 1 + |Section(ts.task, parts.description)|;
            var c := m + |Section(ts.metric, parts.metric)|;
            && StartsWith(p, "\n" + ts.task + "\n")
            && p[|ts.task| + 2..m - 2] == parts.description
            && p[m + |ts.metric| + 1..c - 2] == parts.metric
  {
    var a := Section(ts.task, parts.description);
    var b := Section(ts.metric, parts.metric);
    var p := Sectioned(ts, parts);
    Consecutive("\n", a, b, Section(ts.code, parts.code), LastSection(ts.testbench, parts.testbench));
    SectionContent(p, 1, ts.task, parts.description);
    SectionContent(p, 1 + |a|, ts.metric, parts.metric);
  }

  /** The code and the testbench in a laid-out prompt, and its length. */
  lemma TailSlices(ts: Titles, parts: PromptParts)
    ensures var p := Sectioned(ts, parts);
            var c := 1 + |Section(ts.task, parts.description)| + |Section(ts.metric, parts.metric)|;
            var t := c + |Section(ts.code, parts.code)|;
            && |p| == t + |LastSection(ts.testbench, parts.testbench)|
            && p[c + |ts.code| + 1..t - 2] == parts.code
            && p[t + |ts.testbench| + 2..|p| - 1] == parts.testbench
  {
    var a := Section(ts.task, parts.description);
    var b := Section(ts.metric, parts.metric);
    var c := Section(ts.code, parts.code);
    var p := Sectioned(ts, parts);
    Consecutive("\n", a, b, c, LastSection(ts.testbench, parts.testbench));
    SectionContent(p, 1 + |a| + |b|, ts.code, parts.code);
    LastSectionContent(p, 1 + |a| + |b| + |c|, ts.testbench, parts.testbench);
  }

  /** Where a section's content lies, once the section is placed, and that the
      section's title line comes first. */
  lemma SectionContent(p: string, off: nat, title: string, content: string)
    requires off + |Section(title, content)| <= |p|
    requires p[off..off + |Section(title, content)|] == Section(title, content)
    ensures |Section(title, content)| == |title| + |content| + 3
    ensures p[off..off + |title| + 1] == title + "\n"
    ensures p[off + |title| + 1..off + |title| + 1 + |content|] == content
  {
    var sec := Section(title, content);
    Within(p, off, sec, 0, |title| + 1);
    Within(p, off, sec, |title| + 1, |title| + 1 + |content|);
    assert sec[..|title| + 1] == title + "\n";
    assert sec[|title| + 1..|title| + 1 + |content|] == content;
  }

  /** Where the closing section's content lies, once the section is placed. */
  lemma LastSectionContent(p: string, off: nat, title: string, content: string)
    requires off + |LastSection(title, content)| <= |p|
    requires p[off..off + |LastSection(title, content)|] == LastSection(title, content)
    ensures |LastSection(title, content)| == |title| + |content| + 3
    ensures p[off + |title| + 2..off + |title| + 2 + |content|] == content
  {
    var sec := LastSection(title, content);
    Within(p, off, sec, |title| + 2, |title| + 2 + |content|);
    assert sec[|title| + 2..|title| + 2 + |content|] == content;
  }

  /** A slice of a part is the corresponding slice of the whole. */
  lemma Within(p: string, off: nat, part: string, i: nat, j: nat)
    requires off + |part| <= |p| && p[off..off + |part|] == part
    requires i <= j <= |part|
    ensures p[off + i..off + j] == part[i..j]
  {
    forall x | 0 <= x < j - i
      ensures p[off + i..off + j][x] == part[i..j][x]
    {
      assert p[off + i + x] == p[off..off + |part|][i + x];
    }
  }

  /** Each part of a concatenation occurs where the previous parts end, and
      each prefix ending with a part is the concatenation up to that part. */
  lemma Consecutive(s: string, a: string, b: string, c: string, d: string)
    ensures var p := s + a + b + c + d;
            && |p| == |s| + |a| + |b| + |c| + |d|
            && p[|s|..|s| + |a|] == a
            && p[|s| + |a|..|s| + |a| + |b|] == b
            && p[|s| + |a| + |b|..|s| + |a| + |b| + |c|] == c
            && p[|s| + |a| + |b| + |c|..] == d
            && p[..|s| + |a|] == s + a
            && p[..|s| + |a| + |b|] == s + a + b
            && p[..|s| + |a| + |b| + |c|] == s + a + b + c
  {
    var p := s + a + b + c + d;
    assert p[|s|..|s| + |a|] == a;
    assert p[|s| + |a|..|s| + |a| + |b|] == b;
    assert p[|s| + |a| + |b|..|s| + |a| + |b| + |c|] == c;
    assert p[|s| + |a| + |b| + |c|..] == d;
    assert p[..|s| + |a| + |b| + |c|] == s + a + b + c;
    assert p[..|s| + |a| + |b|] == s + a + b;
    assert p[..|s| + |a|] == s + a;
  }

  /** Python list indexing: a negative index counts from the end. */
  function PyIndex<T>(xs: seq<T>, i: int): (r: Option<T>)
    ensures 0 <= i < |xs| ==> r == Some(xs[i])
    ensures -|xs| <= i < 0 ==> r == Some(xs[|xs| + i])
    ensures r.None? <==> i < -|xs| || |xs| <= i
  {
    if 0 <= i < |xs| then Some(xs[i])
    else if -|xs| <= i < 0 then Some(xs[|xs| + i])
    else None
  }

  /** The path of the `kind` Verilog file for a task (`kind` is a directory such
      as `benchmark` or `baseline/reference`). */
  function TaskFilePath(kind: string, task: int): string {
    kind + "/task" + IntToDecimal(task) + ".v"
  }

  const MetadataPath: string := "benchmark/metadata.json"

  /** The messages a fresh instance with system prompt `system` sends on its
      first call. */
  function Opening(system: string, prompt: string): seq<Message> {
    [Message(System, system), Message(User, prompt)]
  }

  /** The reply of a fresh instance with the default model called once with
      `prompt`: the system prompt and the prompt are all the service sees. */
  function AskOnce(system: string, prompt: string, oracle: Oracle): (reply: string)
    ensures reply == oracle(DefaultModel, Opening(system, prompt))
  {
    var l := NewLlm(system, DefaultMaxContextLen, DefaultModel);
    assert l.messages + [Message(User, prompt)] == Opening(system, prompt);
    Call(l, prompt, oracle).reply
  }

  /** `agent(task)` for an instance whose system prompt is `system`: the
      metadata, the reference baseline and the testbench are read in that order
      (None is a missing file), task `task` selects entry `task - 1`, and a
      fresh `LLM` is called once with the task prompt. */
  function RunAgent(system: string, task: int, metadata: Option<seq<TaskInfo>>, baselineCode: Option<string>,
                    testbenchCode: Option<string>, oracle: Oracle): (r: Result<string>)
    ensures metadata.None? ==> r == Err(FileMissing(MetadataPath))
    ensures metadata.Some? && baselineCode.None? ==> r == Err(FileMissing(TaskFilePath("baseline/reference", task)))
    ensures metadata.Some? && baselineCode.Some? && testbenchCode.None? ==>
              r == Err(FileMissing(TaskFilePath("benchmark", task)))
    ensures metadata.Some? && baselineCode.Some? && testbenchCode.Some? ==>
              && (1 <= task <= |metadata.value| ==>
                    r == Ok(oracle(DefaultModel, Opening(system, UserPrompt(metadata.value[task - 1], baselineCode.value, testbenchCode.value)))))
              && (PyIndex(metadata.value, task - 1).Some? ==>
                    r == Ok(oracle(DefaultModel, Opening(system, UserPrompt(PyIndex(metadata.value, task - 1).value,
                                                                            baselineCode.value, testbenchCode.value)))))
              && (r == Err(TaskIndexOutOfRange) <==> task < 1 - |metadata.value| || task > |metadata.value|)
  {
    if metadata.None? then Err(FileMissing(MetadataPath))
    else if baselineCode.None? then Err(FileMissing(TaskFilePath("baseline/reference", task)))
    else if testbenchCode.None? then Err(FileMissing(TaskFilePath("benchmark", task)))
    else
      var info :- PyIndex(metadata.value, task - 1).ToResult(TaskIndexOutOfRange);
      var prompt := UserPrompt(info, baselineCode.value, testbenchCode.value);
      Ok(AskOnce(system, prompt, oracle))
  }

  /** `agent(task)` itself: `LLM()` is built with the default system prompt. */
  function RunDefaultAgent(task: int, metadata: Option<seq<TaskInfo>>, baselineCode: Option<string>,
                           testbenchCode: Option<string>, oracle: Oracle): Result<string> {
    RunAgent(SystemPrompt, task, metadata, baselineCode, testbenchCode, oracle)
  }

  /** Task 0 does not fail: it selects the LAST metadata entry. */
  lemma TaskZeroSelectsLast(system: string, metadata: seq<TaskInfo>, baselineCode: string, testbenchCode: string, oracle: Oracle)
    requires |metadata| > 0
    ensures RunAgent(system, 0, Some(metadata), Some(baselineCode), Some(testbenchCode), oracle)
            == Ok(oracle(DefaultModel, Opening(system, UserPrompt(metadata[|metadata| - 1], baselineCode, testbenchCode))))
  {
    assert PyIndex(metadata, -1) == Some(metadata[|metadata| - 1]);
  }
}

=== FILE: benchmark.dfy ===
/** The benchmark driver: checking the task number and the baseline name, then
    running simulation, synthesis and power analysis on the baseline design, in
    that order. Files are inputs (`None` when missing) and every tool run is an
    outcome given in `Tools`. */
module Benchmark {
  import opened Outcomes
  import opened Text
  import opened Agent
  import Sim
  import Synth
  import Power
  import Verilog

  /** The number of benchmark tasks; valid task numbers are 1 to TaskCount. */
  const TaskCount: int := 5

  /** The two baselines a benchmark can start from. */
  const Baselines: set<string> := {"optimized", "reference"}

  /** The checked arguments: the metadata index of the task. */
  function ValidateArguments(taskNum: int, baseline: string): (r: Result<nat>)
    ensures r.Ok? <==> 1 <= taskNum <= TaskCount && baseline in Baselines
    ensures !(1 <= taskNum <= TaskCount) ==> r == Err(InvalidTaskNumber(taskNum))
    ensures 1 <= taskNum <= TaskCount && baseline !in Baselines ==> r == Err(InvalidBaseline(baseline))
    ensures r.Ok? ==> r.value + 1 == taskNum && r.value < TaskCount
  {
    if !(1 <= taskNum <= TaskCount) then Err(InvalidTaskNumber(taskNum))
    else if baseline !in Baselines then Err(InvalidBaseline(baseline))
    else Ok(taskNum - 1)
  }

  /** The outcomes of every external step of one benchmark run. */
  datatype Tools = Tools(compile: Run, simulate: Run, yosys: Run,
                         dumpExists: bool, netlistExists: bool, template: Option<string>,
                         opensta: string -> Run, toMilliwatts: string -> Option<string>)

  /** What a run prints (the three reports, in order, as far as it got) and
      the error that ended it, if any. */
  datatype Transcript = Transcript(reports: seq<string>, error: Option<Error>)

  /** The path of the design file for a baseline and task. */
  function BaselinePath(baseline: string, taskNum: int): string {
    TaskFilePath("baseline/" + baseline, taskNum)
  }

  /** The three tool steps on the baseline code. The reports come in the order
      simulation, synthesis, power; a step runs only after the previous one
      returned a report, and a run without an error printed all three. */
  function RunTools(code: string, taskNum: int, tools: Tools): (t: Transcript)
    ensures var sim := Sim.Simulate(code, tools.compile, tools.simulate);
            var synth := Synth.Synthesize(code, tools.yosys);
            var power := Power.AnalyzePower(code, taskNum, tools.dumpExists, tools.netlistExists,
                                            tools.template, tools.opensta, tools.toMilliwatts);
            && |t.reports| <= 3
            && (t.error.None? <==> |t.reports| == 3)
            && (sim.Err? ==> t == Transcript([], Some(sim.error)))
            && (|t.reports| >= 1 ==> sim.Ok? && t.reports[0] == sim.value)
            && (sim.Ok? && synth.Err? ==> t == Transcript([sim.value], Some(synth.error)))
            && (|t.reports| >= 2 ==> synth.Ok? && t.reports[1] == synth.value)
            && (sim.Ok? && synth.Ok? && power.Err? ==> t == Transcript([sim.value, synth.value], Some(power.error)))
            && (|t.reports| == 3 ==> power.Ok? && t.reports[2] == power.value)
            && (sim.Ok? && synth.Ok? && power.Ok? ==> t == Transcript([sim.value, synth.value, power.value], None))
  {
    match Sim.Simulate(code, tools.compile, tools.simulate)
    case Err(e) => Transcript([], Some(e))
    case Ok(simReport) =>
      match Synth.Synthesize(code, tools.yosys)
      case Err(e) => Transcript([simReport], Some(e))
      case Ok(synthReport) =>
        match Power.AnalyzePower(code, taskNum, tools.dumpExists, tools.netlistExists,
                                 tools.template, tools.opensta, tools.toMilliwatts)
        case Err(e) => Transcript([simReport, synthReport], Some(e))
        case Ok(powerReport) => Transcript([simReport, synthReport, powerReport], None)
  }

  /** `benchmark(task_num, baseline)`: the arguments are checked, the metadata
      is read and indexed, the baseline design is read, and the tools run. */
  function RunBenchmark(taskNum: int, baseline: string, metadata: Option<seq<TaskInfo>>,
                        code: Option<string>, tools: Tools): (t: Transcript)
    ensures ValidateArguments(taskNum, baseline).Err? ==>
              t == Transcript([], Some(ValidateArguments(taskNum, baseline).error))
    ensures ValidateArguments(taskNum, baseline).Ok? && metadata.None? ==>
              t == Transcript([], Some(FileMissing(MetadataPath)))
    ensures ValidateArguments(taskNum, baseline).Ok? && metadata.Some? && |metadata.value| < taskNum ==>
              t == Transcript([], Some(TaskIndexOutOfRange))
    ensures ValidateArguments(taskNum, baseline).Ok? && metadata.Some? && taskNum <= |metadata.value|
            && code.None? ==>
              t == Transcript([], Some(FileMissing(BaselinePath(baseline, taskNum))))
    ensures ValidateArguments(taskNum, baseline).Ok? && metadata.Some? && taskNum <= |metadata.value|
            && code.Some? ==>
              t == RunTools(code.value, taskNum, tools)
  {
    match ValidateArguments(taskNum, baseline)
    case Err(e) => Transcript([], Some(e))
    case Ok(index) =>
    if metadata.None? then Transcript([], Some(FileMissing(MetadataPath)))
    else if index >= |metadata.value| then Transcript([], Some(TaskIndexOutOfRange))
    else if code.None? then Transcript([], Some(FileMissing(BaselinePath(baseline, taskNum))))
    else RunTools(code.value, taskNum, tools)
  }

  /** A design the simulator rejects still goes on to synthesis: only an
      error raised inside a step stops the run, not a failing tool. */
  lemma CompileErrorStillSynthesizes(code: string, taskNum: int, tools: Tools)
    requires Verilog.ExtractModuleName(code).Ok?
    requires tools.compile.Errored?
    ensures |RunTools(code, taskNum, tools).reports| >= 1
    ensures RunTools(code, taskNum, tools).reports[0] == Sim.CompileErrorHeader + tools.compile.output
    ensures Synth.Synthesize(code, tools.yosys).Ok? ==> |RunTools(code, taskNum, tools).reports| >= 2
  {
  }
}

=== FILE: chars.dfy ===
/** Character classes as Python 3 defines them for `str` values. */
module Chars {

  /** `str.isspace()`, which is also what `\s`, `str.strip()` and
      `str.split()` use for `str` patterns and values. */
  predicate IsSpace(c: char) {
    || ('\t' <= c <= '\r')              // tab, line feed, vertical tab, form feed, carriage return
    || ('\U{1C}' <= c <= '\U{1F}')      // file, group, record and unit separators
    || c == ' '
    || c == '\U{85}' || c == '\U{A0}' || c == '\U{1680}'
    || ('\U{2000}' <= c <= '\U{200A}')
    || c == '\U{2028}' || c == '\U{2029}' || c == '\U{202F}' || c == '\U{205F}' || c == '\U{3000}'
  }

  predicate IsNonSpace(c: char) {
    !IsSpace(c)
  }

  /** `\d`, restricted to the ASCII digits. */
  predicate IsDigit(c: char) {
    '0' <= c <= '9'
  }

  /** The line boundaries of `str.splitlines()`. */
  predicate IsLineBreak(c: char) {
    || c == '\n' || c == '\r' || c == '\U{0B}' || c == '\U{0C}'
    || ('\U{1C}' <= c <= '\U{1E}')
    || c == '\U{85}' || c == '\U{2028}' || c == '\U{2029}'
  }

  predicate IsNotLineBreak(c: char) {
    !IsLineBreak(c)
  }

  predicate AllSpace(s: string) {
    forall i :: 0 <= i < |s| ==> IsSpace(s[i])
  }

  predicate NoSpace(s: string) {
    forall i :: 0 <= i < |s| ==> !IsSpace(s[i])
  }

  predicate AllDigits(s: string) {
    forall i :: 0 <= i < |s| ==> IsDigit(s[i])
  }

  predicate NoLineBreak(s: string) {
    forall i :: 0 <= i < |s| ==> !IsLineBreak(s[i])
  }

  lemma LineBreakIsSpace(c: char)
    requires IsLineBreak(c)
    ensures IsSpace(c)
  {
  }
}

=== FILE: chat.dfy ===
/** The Streamlit front end: the avatar of each role, the grouping of the
    streamed messages into one chat entry per run of equal roles, and how stored
    entries are displayed. Widgets are modelled by what they would show. */
module Chat {
  import opened Outcomes
  import opened Agent
  import opened Seqs

  /** The avatar icon of a role. */
  function RoleToEmoji(role: Role): (icon: string)
    ensures |icon| > 10 && icon[..10] == ":material/"
  {
    match role
    case System => ":material/keyboard:"
    case User => ":material/person:"
    case Assistant => ":material/robot_2:"
    case Tool => ":material/build:"
  }

  /** No two roles share an avatar. */
  lemma EmojisDistinct(r1: Role, r2: Role)
    ensures RoleToEmoji(r1) == RoleToEmoji(r2) <==> r1 == r2
  {
    if r1 != r2 {
      assert |RoleToEmoji(r1)| != |RoleToEmoji(r2)|;
    }
  }

  /** A stored chat entry; the role is `None` only in the entry an empty stream leaves. */
  datatype Entry = Entry(role: Option<Role>, content: string)

  /** What a chat box shows its contents in. */
  datatype Widget = CodeBlock(text: string) | PlainText(text: string)

  /** The widget for one entry's text. */
  function Render(role: Role, content: string): (w: Widget)
    ensures w.text == content
    ensures w.CodeBlock? <==> role == Assistant
  {
    if role == Assistant then CodeBlock(content) else PlainText(content)
  }

  /** One displayed chat box: its role, its avatar and its widget. */
  datatype ChatBox = ChatBox(role: Role, avatar: string, widget: Widget)

  function Show(role: Role, content: string): ChatBox {
    ChatBox(role, RoleToEmoji(role), Render(role, content))
  }

  /** The number of places where a message's role differs from the next one's. */
  function Changes(stream: seq<Message>): nat
    decreases |stream|
  {
    if |stream| <= 1 then 0
    else Changes(stream[..|stream| - 1])
         + (if stream[|stream| - 2].role != stream[|stream| - 1].role then 1 else 0)
  }

  /** All message contents of a stream, joined in order. */
  function JoinMessages(stream: seq<Message>): string
    decreases |stream|
  {
    if |stream| == 0 then "" else JoinMessages(stream[..|stream| - 1]) + stream[|stream| - 1].content
  }

  /** All entry contents, joined in order. */
  function JoinEntries(entries: seq<Entry>): string
    decreases |entries|
  {
    if |entries| == 0 then "" else JoinEntries(entries[..|entries| - 1]) + entries[|entries| - 1].content
  }

  /** One more message added to the entries so far: a message whose role is
      that of the last entry extends that entry's content; any other message
      opens a new entry. */
  function Group(entries: seq<Entry>, m: Message): (r: seq<Entry>)
    requires |entries| > 0
    ensures |r| == |entries| + (if entries[|entries| - 1].role == Some(m.role) then 0 else 1)
    ensures r[|r| - 1].role == Some(m.role)
  {
    var last := entries[|entries| - 1];
    if last.role == Some(m.role) then entries[..|entries| - 1] + [Entry(last.role, last.content + m.content)]
    else entries + [Entry(Some(m.role), m.content)]
  }

  /** Adding a message leaves every entry but the last as it was. */
  lemma GroupKeepsFront(entries: seq<Entry>, m: Message)
    requires |entries| > 0
    ensures forall i :: 0 <= i < |entries| - 1 ==> Group(entries, m)[i] == entries[i]
  {
  }

  /** Adding a message to entries ending in `e`, spelled out. */
  lemma GroupSnoc(front: seq<Entry>, e: Entry, m: Message)
    ensures Group(front + [e], m)
            == if e.role == Some(m.role) then front + [Entry(e.role, e.content + m.content)]
               else front + [e] + [Entry(Some(m.role), m.content)]
  {
    assert (front + [e])[..|front|] == front;
  }

  /** The entries a non-empty stream is grouped into, message by message. */
  function Runs(stream: seq<Message>): (r: seq<Entry>)
    requires |stream| > 0
    ensures 0 < |r| <= |stream|
    ensures r[|r| - 1].role == Some(stream[|stream| - 1].role)
    decreases |stream|
  {
    var m := stream[|stream| - 1];
    if |stream| == 1 then [Entry(Some(m.role), m.content)]
    else Group(Runs(stream[..|stream| - 1]), m)
  }

  /** Adding a message keeps every entry's role defined and the first role. */
  lemma GroupRoles(entries: seq<Entry>, m: Message)
    requires |entries| > 0
    requires forall i :: 0 <= i < |entries| ==> entries[i].role.Some?
    ensures Group(entries, m)[0].role == entries[0].role
    ensures forall i :: 0 <= i < |Group(entries, m)| ==> Group(entries, m)[i].role.Some?
  {
    var r := Group(entries, m);
    GroupKeepsFront(entries, m);
    assert r[0].role == entries[0].role;
  }

  /** Every entry has a role, and the first is the first message's. */
  lemma {:induction false} RunsRoles(stream: seq<Message>)
    requires |stream| > 0
    ensures Runs(stream)[0].role == Some(stream[0].role)
    ensures forall i :: 0 <= i < |Runs(stream)| ==> Runs(stream)[i].role.Some?
    decreases |stream|
  {
    if |stream| > 1 {
      var init := stream[..|stream| - 1];
      RunsRoles(init);
      assert init[0] == stream[0];
      GroupRoles(Runs(init), stream[|stream| - 1]);
    }
  }

  /** A stream whose messages all have one role becomes a single entry holding
      all of their contents. */
  lemma {:induction false} SameRoleMerged(stream: seq<Message>, role: Role)
    requires |stream| > 0
    requires forall i :: 0 <= i < |stream| ==> stream[i].role == role
    ensures Runs(stream) == [Entry(Some(role), JoinMessages(stream))]
    decreases |stream|
  {
    var m := stream[|stream| - 1];
    if |stream| > 1 {
      var init := stream[..|stream| - 1];
      assert forall i :: 0 <= i < |init| ==> init[i].role == stream[i].role;
      SameRoleMerged(init, role);
      GroupSnoc([], Entry(Some(role), JoinMessages(init)), m);
      assert [] + [Entry(Some(role), JoinMessages(init))] == Runs(init);
    } else {
      assert JoinMessages(stream) == JoinMessages([]) + m.content;
      assert JoinMessages(stream) == m.content;
    }
  }

  /** Adding a message keeps neighbouring entries' roles distinct. */
  lemma GroupAlternates(entries: seq<Entry>, m: Message)
    requires |entries| > 0
    requires forall i :: 0 <= i < |entries| - 1 ==> entries[i].role != entries[i + 1].role
    ensures var r := Group(entries, m);
            forall i :: 0 <= i < |r| - 1 ==> r[i].role != r[i + 1].role
  {
    var r := Group(entries, m);
    GroupKeepsFront(entries, m);
    forall i | 0 <= i < |r| - 1
      ensures r[i].role != r[i + 1].role
    {
      if i + 1 < |entries| - 1 {
        assert r[i] == entries[i] && r[i + 1] == entries[i + 1];
      } else if i + 1 == |entries| - 1 {
        assert r[i] == entries[i];
        assert r[i + 1].role == entries[i + 1].role;
      } else {
        assert r[i] == entries[i];
      }
    }
  }

  /** Adding a message only looks at the last entry: entries in front are
      carried along unchanged. */
  lemma GroupAppend(front: seq<Entry>, entries: seq<Entry>, m: Message)
    requires |entries| > 0
    ensures Group(front + entries, m) == front + Group(entries, m)
  {
    var all := front + entries;
    assert all[|all| - 1] == entries[|entries| - 1];
    assert all[..|all| - 1] == front + entries[..|entries| - 1];
  }

  /** Where the role changes between two streams, grouping them together is
      grouping each on its own: no entry spans the change. With
      `SameRoleMerged` this determines every entry of the grouping. */
  lemma {:induction false} RunsAppend(s1: seq<Message>, s2: seq<Message>)
    requires |s1| > 0 && |s2| > 0
    requires s1[|s1| - 1].role != s2[0].role
    ensures Runs(s1 + s2) == Runs(s1) + Runs(s2)
    decreases |s2|
  {
    var all := s1 + s2;
    var m := s2[|s2| - 1];
    assert all[|all| - 1] == m;
    if |s2| == 1 {
      assert all[..|all| - 1] == s1;
      assert Runs(all) == Group(Runs(s1), m);
    } else {
      var init := s2[..|s2| - 1];
      assert all[..|all| - 1] == s1 + init;
      assert init[0] == s2[0];
      RunsAppend(s1, init);
      assert Runs(all) == Group(Runs(s1) + Runs(init), m);
      GroupAppend(Runs(s1), Runs(init), m);
    }
  }

  /** Neighbouring entries never have the same role. */
  lemma {:induction false} RunsAlternate(stream: seq<Message>)
    requires |stream| > 0
    ensures forall i :: 0 <= i < |Runs(stream)| - 1 ==> Runs(stream)[i].role != Runs(stream)[i + 1].role
    decreases |stream|
  {
    if |stream| > 1 {
      RunsAlternate(stream[..|stream| - 1]);
      GroupAlternates(Runs(stream[..|stream| - 1]), stream[|stream| - 1]);
    }
  }

  /** Joining entry contents distributes over appending one entry. */
  lemma JoinEntriesSnoc(entries: seq<Entry>, e: Entry)
    ensures JoinEntries(entries + [e]) == JoinEntries(entries) + e.content
  {
    assert (entries + [e])[..|entries|] == entries;
  }

  /** Merging a message into the last entry appends its content. */
  lemma MergeKeepsContents(front: seq<Entry>, last: Entry, m: Message)
    ensures JoinEntries(front + [Entry(last.role, last.content + m.content)])
            == JoinEntries(front + [last]) + m.content
  {
    JoinEntriesSnoc(front, last);
    JoinEntriesSnoc(front, Entry(last.role, last.content + m.content));
  }

  /** Adding a message appends its content to the joined contents. */
  lemma GroupKeepsContents(entries: seq<Entry>, m: Message)
    requires |entries| > 0
    ensures JoinEntries(Group(entries, m)) == JoinEntries(entries) + m.content
  {
    var front := entries[..|entries| - 1];
    var last := entries[|entries| - 1];
    SplitLast(entries);
    GroupSnoc(front, last, m);
    if last.role == Some(m.role) {
      MergeKeepsContents(front, last, m);
    } else {
      JoinEntriesSnoc(entries, Entry(Some(m.role), m.content));
    }
  }

  /** Grouping loses and reorders no text: the entries' contents, joined,
      are the messages' contents, joined. */
  lemma {:induction false} RunsKeepContents(stream: seq<Message>)
    requires |stream| > 0
    ensures JoinEntries(Runs(stream)) == JoinMessages(stream)
    decreases |stream|
  {
    var m := stream[|stream| - 1];
    if |stream| > 1 {
      var init := stream[..|stream| - 1];
      RunsKeepContents(init);
      GroupKeepsContents(Runs(init), m);
    } else {
      JoinEntriesSnoc([], Entry(Some(m.role), m.content));
      assert [] + [Entry(Some(m.role), m.content)] == Runs(stream);
      assert JoinMessages(stream) == JoinMessages([]) + m.content;
    }
  }

  /** A non-empty stream gives one entry more than it has role changes. */
  lemma {:induction false} RunsCount(stream: seq<Message>)
    requires |stream| > 0
    ensures |Runs(stream)| == 1 + Changes(stream)
    decreases |stream|
  {
    if |stream| > 1 {
      var init := stream[..|stream| - 1];
      RunsCount(init);
      assert init[|init| - 1] == stream[|stream| - 2];
    }
  }

  /** One turn of the loop: the state before message `i` describes the
      grouping of the messages before it, and the state after the turn that of
      the messages up to and including it. */
  lemma LoopStep(stream: seq<Message>, i: nat, newMessages: seq<Entry>, current: Option<Role>, buffer: string)
    requires 0 < i < |stream|
    requires newMessages + [Entry(current, buffer)] == Runs(stream[..i])
    ensures current.Some?
    ensures var m := stream[i];
            var kept := if current != Some(m.role) then newMessages + [Entry(current, buffer)] else newMessages;
            var open := if current != Some(m.role) then "" else buffer;
            kept + [Entry(Some(m.role), open + m.content)] == Runs(stream[..i + 1])
  {
    var m := stream[i];
    assert stream[..i + 1][..i] == stream[..i];
    assert Runs(stream[..i + 1]) == Group(Runs(stream[..i]), m);
    GroupSnoc(newMessages, Entry(current, buffer), m);
    assert (newMessages + [Entry(current, buffer)])[i - i + |newMessages|] == Entry(current, buffer);
    assert "" + m.content == m.content;
  }

  /** The first turn of the loop opens the first entry. */
  lemma FirstStep(stream: seq<Message>)
    requires 0 < |stream|
    ensures [] + [Entry(Some(stream[0].role), "" + stream[0].content)] == Runs(stream[..1])
  {
    assert stream[..1] == [stream[0]];
    assert "" + stream[0].content == stream[0].content;
  }

  /** The loop over the streamed messages (`new_messages`, `current_role`,
      `buffer`), followed by the final append of the last entry. */
  method GroupStream(stream: seq<Message>) returns (entries: seq<Entry>)
    ensures |stream| == 0 ==> entries == [Entry(None, "")]
    ensures |stream| > 0 ==> entries == Runs(stream)
  {
    var newMessages: seq<Entry> := [];
    var current: Option<Role> := None;
    var buffer := "";
    var i := 0;
    while i < |stream|
      invariant 0 <= i <= |stream|
      invariant i == 0 ==> current == None && buffer == "" && newMessages == []
      invariant i > 0 ==> newMessages + [Entry(current, buffer)] == Runs(stream[..i])
    {
      var m := stream[i];
      if i > 0 {
        LoopStep(stream, i, newMessages, current, buffer);
      } else {
        FirstStep(stream);
      }
      if current != Some(m.role) {
        if current != None {
          newMessages := newMessages + [Entry(current, buffer)];
        }
        current := Some(m.role);
        buffer := "";
      }
      buffer := buffer + m.content;
      i := i + 1;
    }
    assert stream[..i] == stream;
    entries := newMessages + [Entry(current, buffer)];
  }

  /** The chat boxes for the stored history, or `None` when an entry has no
      role, whose `.value` cannot be taken. */
  function ShowHistory(history: seq<Entry>): (r: Option<seq<ChatBox>>)
    ensures r.Some? <==> forall i :: 0 <= i < |history| ==> history[i].role.Some?
    ensures r.Some? ==> |r.value| == |history|
    ensures r.Some? ==> forall i :: 0 <= i < |history| ==>
              r.value[i] == Show(history[i].role.value, history[i].content)
    decreases |history|
  {
    if |history| == 0 then Some([])
    else
      var last := history[|history| - 1];
      match ShowHistory(history[..|history| - 1])
      case None => None
      case Some(boxes) =>
        if last.role.None? then None
        else Some(boxes + [Show(last.role.value, last.content)])
  }

  /** Persisting the new entries after a run. */
  function Persist(history: seq<Entry>, entries: seq<Entry>): seq<Entry> {
    history + entries
  }

  /** Persisting never changes how the earlier history is displayed. */
  lemma PersistKeepsHistory(history: seq<Entry>, entries: seq<Entry>)
    requires ShowHistory(Persist(history, entries)).Some?
    ensures ShowHistory(history).Some?
    ensures ShowHistory(Persist(history, entries)).value[..|history|] == ShowHistory(history).value
  {
    var all := Persist(history, entries);
    assert forall i :: 0 <= i < |history| ==> history[i] == all[i];
  }

  /** An empty stream leaves an entry without a role, after which the history
      can no longer be displayed. */
  lemma EmptyStreamBreaksHistory(history: seq<Entry>)
    ensures ShowHistory(Persist(history, [Entry(None, "")])).None?
  {
    var all := Persist(history, [Entry(None, "")]);
    assert all[|history|].role.None?;
  }

  /** The new entries with the empty stream leaving none. */
  function NewEntries(stream: seq<Message>): (r: seq<Entry>)
    ensures |stream| == 0 <==> r == []
    ensures |r| <= |stream|
  {
    if |stream| == 0 then [] else Runs(stream)
  }

  /** With that correction, every run keeps the history displayable, with the
      new entries shown after the old ones. */
  lemma HistoryStaysShowable(history: seq<Entry>, stream: seq<Message>)
    requires ShowHistory(history).Some?
    ensures ShowHistory(Persist(history, NewEntries(stream))).Some?
    ensures ShowHistory(Persist(history, NewEntries(stream))).value[..|history|] == ShowHistory(history).value
  {
    var all := Persist(history, NewEntries(stream));
    if |stream| > 0 {
      RunsRoles(stream);
    }
    assert forall i :: 0 <= i < |all| ==> all[i].role.Some? by {
      forall i | 0 <= i < |all|
        ensures all[i].role.Some?
      {
        if i >= |history| {
          assert all[i] == NewEntries(stream)[i - |history|];
        }
      }
    }
    PersistKeepsHistory(history, NewEntries(stream));
  }
}

=== FILE: outcomes.dfy ===
/** Failure-compatible result types shared by every module, the exceptions
    the tool wrappers raise, and the outcome of one subprocess invocation. */
module Outcomes {

  datatype Option<+T> = None | Some(value: T) {

    /** Turns a missing value into the given error. */
    function ToResult(e: Error): Result<T> {
      match this
      case Some(v) => Ok(v)
      case None => Err(e)
    }
  }

  /** The exceptions raised by the modelled code, one constructor per raise site. */
  datatype Error =
    | ModuleNameNotFound          // no `module <name>` header at the start of the code
    | TimeNotFound                // no `TIME: <digits>` in the simulator output
    | SimResultNotFound           // neither PASSED nor FAILED in the simulator output
    | AreaNotFound                // no `Number of cells: <digits>` in the Yosys output
    | TotalPowerNotFound          // no line starting with Total in the OpenSTA output
    | PowerFieldMissing           // the Total line has fewer than five fields (IndexError)
    | PowerNotANumber             // the fifth field is not a float (ValueError)
    | SimulationMissing           // the value-change dump is missing (FileNotFoundError)
    | SynthesisMissing            // the synthesised netlist is missing (FileNotFoundError)
    | FileMissing(path: string)   // any other file that could not be opened
    | InvalidTaskNumber(task: int)
    | InvalidBaseline(baseline: string)
    | TaskIndexOutOfRange         // indexing the task metadata list failed (IndexError)

  datatype Result<+T> = Ok(value: T) | Err(error: Error) {

    predicate IsFailure() {
      Err?
    }

    function PropagateFailure<U>(): Result<U>
      requires Err?
    {
      Err(error)
    }

    function Extract(): T
      requires Ok?
    {
      value
    }
  }

  /** A subprocess run with `check=True` and stderr folded into stdout:
      either it exits with status zero, or it raises CalledProcessError.
      Either way the combined output text is available. */
  datatype Run = Completed(output: string) | Errored(output: string)

  /** The request that ends every tool error report, before the tool output. */
  const PleaseFix: string := "Please investigate and fix:\n"
}

=== FILE: power.dfy ===
/** The OpenSTA wrapper: selecting the total power from the report table,
    filling in the analysis script template, and turning the outcome of the
    run into the report text. */
module Power {
  import opened Outcomes
  import opened Chars
  import opened Scan
  import opened Seqs
  import opened Text
  import opened Verilog

  const TotalKeyword: string := "Total"
  const ModuleNamePlaceholder: string := "{MODULE_NAME}"
  const TaskNumPlaceholder: string := "{TASK_NUM}"
  const ScriptTemplatePath: string := "benchmark/power.tcl"

  const PowerErrorHeader: string := "OpenSTA gave an error" + " during power analysis. " + PleaseFix
  const PassedHeader: string := "The power analysis completed" + " successfully\n" + "Power (mW) == "

  /** A line of the report table whose stripped form starts with Total. */
  predicate IsTotalLine(line: string) {
    StartsWith(Strip(line), TotalKeyword)
  }

  /** The index of the first Total line, as the loop over the lines finds it. */
  function FirstTotalLine(lines: seq<string>): (r: Option<nat>)
    ensures r.Some? ==> r.value < |lines| && IsTotalLine(lines[r.value])
    ensures r.Some? ==> forall j :: 0 <= j < r.value ==> !IsTotalLine(lines[j])
    ensures r.None? ==> forall i :: 0 <= i < |lines| ==> !IsTotalLine(lines[i])
  {
    var first := FindFirst((i: nat) => i < |lines| && IsTotalLine(lines[i]), 0, |lines|);
    assert first.None? ==> forall i :: 0 <= i < |lines| ==> !IsTotalLine(lines[i]) by {
      if first.None? {
        forall i | 0 <= i < |lines| ensures !IsTotalLine(lines[i]) {
          assert !(((k: nat) => k < |lines| && IsTotalLine(lines[k]))(i));
        }
      }
    }
    assert first.Some? ==> forall j :: 0 <= j < first.value ==> !IsTotalLine(lines[j]) by {
      if first.Some? {
        forall j | 0 <= j < first.value ensures !IsTotalLine(lines[j]) {
          assert !(((k: nat) => k < |lines| && IsTotalLine(lines[k]))(j));
        }
      }
    }
    first
  }

  /** The first Total line of a sequence of lines stays the first one when more
      lines are appended. */
  lemma FirstTotalLineOfPrefix(lines: seq<string>, later: seq<string>, i: nat)
    requires i < |lines| && IsTotalLine(lines[i])
    ensures FirstTotalLine(lines + later) == FirstTotalLine(lines)
    ensures FirstTotalLine(lines).Some?
  {
    var all := lines + later;
    assert FirstTotalLine(lines).Some? by {
      assert IsTotalLine(lines[i]);
    }
    var f := FirstTotalLine(lines).value;
    assert all[f] == lines[f];
    forall j | 0 <= j < f ensures !IsTotalLine(all[j]) {
      assert all[j] == lines[j];
    }
    FirstTotalLineAt(all, f);
  }

  /** The fifth whitespace-separated field of the FIRST Total line; a first Total
      line with fewer than five fields is an error, later lines are not tried. */
  function TotalPowerField(lines: seq<string>): (r: Result<string>)
    ensures r == Err(TotalPowerNotFound) <==> forall i :: 0 <= i < |lines| ==> !IsTotalLine(lines[i])
    ensures r != Err(TotalPowerNotFound) ==>
              exists i :: && 0 <= i < |lines| && IsTotalLine(lines[i])
                          && (forall j :: 0 <= j < i ==> !IsTotalLine(lines[j]))
                          && r == (if |Fields(lines[i])| < 5 then Err(PowerFieldMissing) else Ok(Fields(lines[i])[4]))
  {
    match FirstTotalLine(lines)
    case None => Err(TotalPowerNotFound)
    case Some(i) =>
      var parts := Fields(lines[i]);
      if |parts| < 5 then Err(PowerFieldMissing) else Ok(parts[4])
  }

  /** Lines after the first Total line never affect the result. */
  lemma LaterLinesIgnored(lines: seq<string>, later: seq<string>, i: nat)
    requires i < |lines| && IsTotalLine(lines[i])
    ensures TotalPowerField(lines + later) == TotalPowerField(lines)
  {
    FirstTotalLineOfPrefix(lines, later, i);
    var a := FirstTotalLine(lines).value;
    assert (lines + later)[a] == lines[a];
  }

  /** The total power in milliwatts read from OpenSTA's output. Converting the
      selected field with `float`, scaling and formatting it is the parameter
      `toMilliwatts`; None stands for the ValueError of a non-numeric field. */
  function ExtractPower(output: string, toMilliwatts: string -> Option<string>): (r: Result<string>)
    ensures r.Ok? <==> TotalPowerField(SplitLines(output)).Ok?
                       && toMilliwatts(TotalPowerField(SplitLines(output)).value).Some?
    ensures r.Ok? ==> r.value == toMilliwatts(TotalPowerField(SplitLines(output)).value).value
    ensures r.Err? ==> r.error in {TotalPowerNotFound, PowerFieldMissing, PowerNotANumber}
    ensures TotalPowerField(SplitLines(output)).Err? ==> r == Err(TotalPowerField(SplitLines(output)).error)
    ensures TotalPowerField(SplitLines(output)).Ok? && toMilliwatts(TotalPowerField(SplitLines(output)).value).None? ==>
              r == Err(PowerNotANumber)
  {
    var field :- TotalPowerField(SplitLines(output));
    toMilliwatts(field).ToResult(PowerNotANumber)
  }

  /** A report table: the power is read from the fifth cell of the first row
      whose first cell starts with Total. Cells may be separated and surrounded
      by any whitespace other than line breaks, and the last line of the output
      need not end in a line break. */
  lemma PowerOfTable(before: seq<string>, gaps: seq<string>, cells: seq<string>, after: seq<string>,
                     last: string, toMilliwatts: string -> Option<string>)
    requires forall k :: 0 <= k < |before| ==> NoLineBreak(before[k]) && !IsTotalLine(before[k])
    requires forall k :: 0 <= k < |after| ==> NoLineBreak(after[k])
    requires NoLineBreak(last)
    requires |gaps| == |cells| + 1
    requires forall k :: 0 <= k < |gaps| ==> AllSpace(gaps[k]) && NoLineBreak(gaps[k])
    requires forall k :: 0 < k < |cells| ==> |gaps[k]| > 0
    requires forall k :: 0 <= k < |cells| ==> |cells[k]| > 0 && NoSpace(cells[k])
    requires |cells| >= 5 && StartsWith(cells[0], TotalKeyword)
    ensures ExtractPower(Terminated(before + [Spaced(gaps, cells)] + after) + last, toMilliwatts)
            == toMilliwatts(cells[4]).ToResult(PowerNotANumber)
  {
    var row := Spaced(gaps, cells);
    var tail := if last == [] then [] else [last];
    TotalRow(gaps, cells);
    TableLines(before, row, after, last);
    FirstTotalLineAfter(before, row, after + tail);
    PowerOfLines(Terminated(before + [row] + after) + last, before + [row] + (after + tail), |before|, toMilliwatts);
  }

  /** The lines of an output made of lines without line breaks, the last
      one possibly unterminated. */
  lemma TableLines(before: seq<string>, row: string, after: seq<string>, last: string)
    requires forall k :: 0 <= k < |before| ==> NoLineBreak(before[k])
    requires NoLineBreak(row)
    requires forall k :: 0 <= k < |after| ==> NoLineBreak(after[k])
    requires NoLineBreak(last)
    ensures SplitLines(Terminated(before + [row] + after) + last)
            == before + [row] + (after + if last == [] then [] else [last])
  {
    var t := Terminated(after);
    var rest := t + last;
    var tail := if last == [] then [] else [last];
    assert ([row] + after)[1..] == after;
    assert Terminated([row] + after) == row + "\n" + t;
    AppendAssoc(row + "\n", t, last);
    AppendAssoc(before, [row], after);
    TerminatedAppend(before, [row] + after);
    AppendAssoc(Terminated(before), row + "\n" + t, last);
    SplitLinesPrefix(before, row + "\n" + rest);
    SplitLinesStep(row, rest);
    SplitLinesLastUnterminated(after, last);
    AppendAssoc(before, [row], after + tail);
  }

  /** A Total line after lines that are not Total lines is the first one. */
  lemma FirstTotalLineAfter(before: seq<string>, row: string, after: seq<string>)
    requires forall k :: 0 <= k < |before| ==> !IsTotalLine(before[k])
    requires IsTotalLine(row)
    ensures FirstTotalLine(before + [row] + after) == Some(|before|)
  {
    var lines := before + [row] + after;
    assert lines[|before|] == row;
    assert forall j :: 0 <= j < |before| ==> lines[j] == before[j];
    FirstTotalLineAt(lines, |before|);
  }

  /** A Total line with no Total line before it is the first one. */
  lemma FirstTotalLineAt(lines: seq<string>, i: nat)
    requires i < |lines| && IsTotalLine(lines[i])
    requires forall j :: 0 <= j < i ==> !IsTotalLine(lines[j])
    ensures FirstTotalLine(lines) == Some(i)
  {
    var r := FirstTotalLine(lines);
    assert r.Some?;
    assert r.value <= i;
    assert r.value >= i;
  }

  /** The power read from an output whose lines are known. */
  lemma PowerOfLines(output: string, lines: seq<string>, i: nat, toMilliwatts: string -> Option<string>)
    requires SplitLines(output) == lines && FirstTotalLine(lines) == Some(i)
    requires |Fields(lines[i])| >= 5
    ensures ExtractPower(output, toMilliwatts) == toMilliwatts(Fields(lines[i])[4]).ToResult(PowerNotANumber)
  {
  }

  /** A row of cells starting with Total is a Total line, without line
      breaks, whose fields are the cells. */
  lemma TotalRow(gaps: seq<string>, cells: seq<string>)
    requires |gaps| == |cells| + 1
    requires forall k :: 0 <= k < |gaps| ==> AllSpace(gaps[k]) && NoLineBreak(gaps[k])
    requires forall k :: 0 < k < |cells| ==> |gaps[k]| > 0
    requires forall k :: 0 <= k < |cells| ==> |cells[k]| > 0 && NoSpace(cells[k])
    requires |cells| > 0 && StartsWith(cells[0], TotalKeyword)
    ensures IsTotalLine(Spaced(gaps, cells)) && NoLineBreak(Spaced(gaps, cells))
    ensures Fields(Spaced(gaps, cells)) == cells
  {
    var row := Spaced(gaps, cells);
    var w := cells[0];
    var rest := Spaced(gaps[1..], cells[1..]);
    assert row == gaps[0] + w + rest;
    StripKeepsFirstWord(gaps[0], w, rest);
    assert Strip(row)[..|TotalKeyword|] == w[..|TotalKeyword|];
    SpacedNoLineBreak(gaps, cells);
    FieldsSpaced(gaps, cells);
  }

  /** Stripping whitespace followed by a word keeps the word at the front. */
  lemma StripKeepsFirstWord(ws: string, w: string, rest: string)
    requires AllSpace(ws) && |w| > 0 && NoSpace(w)
    ensures |Strip(ws + w + rest)| >= |w| && Strip(ws + w + rest)[..|w|] == w
  {
    var s := ws + w + rest;
    assert s[|ws|] == w[0];
    forall k | 0 <= k < |ws| ensures IsSpace(s[k]) {
      assert s[k] == ws[k];
    }
    SpanWhileUnique(IsSpace, s, 0, |ws|);
    var t := TrimStart(s);
    assert t == w + rest;
    var r := TrimEnd(t);
    assert t[|w| - 1] == w[|w| - 1];
    assert r[..|w|] == t[..|w|];
  }

  /** Spaced cells contain a line break only where a gap or a cell does. */
  lemma {:induction false} SpacedNoLineBreak(gaps: seq<string>, cells: seq<string>)
    requires |gaps| == |cells| + 1
    requires forall k :: 0 <= k < |gaps| ==> NoLineBreak(gaps[k])
    requires forall k :: 0 <= k < |cells| ==> NoSpace(cells[k])
    ensures NoLineBreak(Spaced(gaps, cells))
    decreases |cells|
  {
    if |cells| > 0 {
      SpacedNoLineBreak(gaps[1..], cells[1..]);
      var g := gaps[0];
      var w := cells[0];
      var rest := Spaced(gaps[1..], cells[1..]);
      var s := Spaced(gaps, cells);
      assert s == g + w + rest;
      forall k | 0 <= k < |s| ensures !IsLineBreak(s[k]) {
        if k < |g| {
          assert s[k] == g[k];
        } else if k < |g| + |w| {
          assert s[k] == w[k - |g|];
          if IsLineBreak(s[k]) {
            LineBreakIsSpace(s[k]);
          }
        } else {
          assert s[k] == rest[k - |g| - |w|];
        }
      }
    }
  }

  /** The analysis script: `{MODULE_NAME}` is replaced first, then `{TASK_NUM}`
      by the decimal task number. */
  function PowerScript(template: string, name: string, task: int): (r: string)
    ensures !Contains(template, ModuleNamePlaceholder) && !Contains(template, TaskNumPlaceholder) ==> r == template
  {
    Replace(Replace(template, ModuleNamePlaceholder, name), TaskNumPlaceholder, IntToDecimal(task))
  }

  /** Substitution order: a module name placeholder becomes the module name, and
      a task placeholder inside that name is then replaced as well. */
  lemma ModuleNameSubstitutedFirst(name: string, task: int)
    ensures PowerScript(ModuleNamePlaceholder, name, task)
            == Replace(name, TaskNumPlaceholder, IntToDecimal(task))
  {
    ReplaceWhole(ModuleNamePlaceholder, name);
  }

  /** A task placeholder becomes the decimal task number. */
  lemma TaskNumberSubstituted(name: string, task: int)
    ensures PowerScript(TaskNumPlaceholder, name, task) == IntToDecimal(task)
  {
    assert !Contains(TaskNumPlaceholder, ModuleNamePlaceholder);
    ReplaceWhole(TaskNumPlaceholder, IntToDecimal(task));
  }

  /** Neither placeholder has its opening brace anywhere but at its start. */
  lemma PlaceholdersFirstCharUnique()
    ensures FirstCharUnique(ModuleNamePlaceholder) && FirstCharUnique(TaskNumPlaceholder)
  {
  }

  /** A module name placeholder inside a template without any other one is
      replaced by the module name, the text around it kept; the task
      placeholders of the result are then filled in. */
  lemma ModuleNameFilledIn(t1: string, t2: string, name: string, task: int)
    requires !Contains(t1, ModuleNamePlaceholder) && !Contains(t2, ModuleNamePlaceholder)
    ensures PowerScript(t1 + ModuleNamePlaceholder + t2, name, task)
            == Replace(t1 + name + t2, TaskNumPlaceholder, IntToDecimal(task))
    ensures !Contains(t1 + name + t2, TaskNumPlaceholder) ==>
              PowerScript(t1 + ModuleNamePlaceholder + t2, name, task) == t1 + name + t2
  {
    PlaceholdersFirstCharUnique();
    assert t1 + ModuleNamePlaceholder + t2 == t1 + (ModuleNamePlaceholder + t2);
    NoneStartsBefore(t1, ModuleNamePlaceholder + t2, ModuleNamePlaceholder);
    ReplaceSplice(t1, t2, ModuleNamePlaceholder, name);
  }

  /** A task placeholder inside a template with no other placeholder is
      replaced by the decimal task number, the text around it kept. */
  lemma TaskNumFilledIn(t1: string, t2: string, name: string, task: int)
    requires !Contains(t1, ModuleNamePlaceholder) && !Contains(t2, ModuleNamePlaceholder)
    requires !Contains(t1, TaskNumPlaceholder) && !Contains(t2, TaskNumPlaceholder)
    ensures PowerScript(t1 + TaskNumPlaceholder + t2, name, task) == t1 + IntToDecimal(task) + t2
  {
    PlaceholdersFirstCharUnique();
    var template := t1 + TaskNumPlaceholder + t2;
    assert template == t1 + (TaskNumPlaceholder + t2);
    NoneStartsBefore(t1, TaskNumPlaceholder + t2, ModuleNamePlaceholder);
    ReplaceFree(t1, TaskNumPlaceholder + t2, ModuleNamePlaceholder, name);
    TaskNumPlaceholderNoModuleName(t2);
    ReplaceFree(TaskNumPlaceholder, t2, ModuleNamePlaceholder, name);
    assert Replace(template, ModuleNamePlaceholder, name) == template;
    NoneStartsBefore(t1, TaskNumPlaceholder + t2, TaskNumPlaceholder);
    ReplaceSplice(t1, t2, TaskNumPlaceholder, IntToDecimal(task));
  }

  /** No module name placeholder starts inside a task placeholder. */
  lemma TaskNumPlaceholderNoModuleName(t2: string)
    ensures forall i: nat :: i < |TaskNumPlaceholder| ==> !OccursAt(TaskNumPlaceholder + t2, ModuleNamePlaceholder, i)
  {
    var s := TaskNumPlaceholder + t2;
    forall i: nat | i < |TaskNumPlaceholder| ensures !OccursAt(s, ModuleNamePlaceholder, i) {
      if i + |ModuleNamePlaceholder| <= |s| {
        var w := s[i..i + |ModuleNamePlaceholder|];
        if i == 0 {
          assert w[1] == 'T' != ModuleNamePlaceholder[1];
        } else {
          assert w[0] == TaskNumPlaceholder[i] != '{';
        }
      }
    }
  }

  /** The power report for `code`. The existence of the value-change dump and of
      the synthesised netlist are inputs, checked in that order before anything
      else happens; `template` is the script template file, if it exists;
      `opensta` is the outcome of running OpenSTA on a script. Only the
      subprocess error becomes report text; every other failure propagates. */
  function AnalyzePower(code: string, task: int, dumpExists: bool, netlistExists: bool,
                        template: Option<string>, opensta: string -> Run,
                        toMilliwatts: string -> Option<string>): (r: Result<string>)
    ensures ExtractModuleName(code).Err? ==> r == Err(ModuleNameNotFound)
    ensures ExtractModuleName(code).Ok? && !dumpExists ==> r == Err(SimulationMissing)
    ensures ExtractModuleName(code).Ok? && dumpExists && !netlistExists ==> r == Err(SynthesisMissing)
    ensures ExtractModuleName(code).Ok? && dumpExists && netlistExists && template.None? ==>
              r == Err(FileMissing(ScriptTemplatePath))
    ensures ExtractModuleName(code).Ok? && dumpExists && netlistExists && template.Some? ==>
              var run := opensta(PowerScript(template.value, ExtractModuleName(code).value, task));
              && (run.Errored? ==> r == Ok(PowerErrorHeader + run.output))
              && (run.Completed? ==>
                    (if ExtractPower(run.output, toMilliwatts).Err? then r == Err(ExtractPower(run.output, toMilliwatts).error)
                     else r == Ok(PassedHeader + ExtractPower(run.output, toMilliwatts).value)))
  {
    var name :- ExtractModuleName(code);
    if !dumpExists then Err(SimulationMissing)
    else if !netlistExists then Err(SynthesisMissing)
    else if template.None? then Err(FileMissing(ScriptTemplatePath))
    else
      match opensta(PowerScript(template.value, name, task))
      case Errored(out) => Ok(PowerErrorHeader + out)
      case Completed(out) =>
        var power :- ExtractPower(out, toMilliwatts);
        Ok(PassedHeader + power)
  }

  /** A missing dump or netlist is reported before OpenSTA is involved: the
      result does not depend on what OpenSTA would do. */
  lemma MissingArtifactSkipsOpensta(code: string, task: int, dumpExists: bool, netlistExists: bool,
                                    template: Option<string>, run1: string -> Run, run2: string -> Run,
                                    toMilliwatts: string -> Option<string>)
    requires !dumpExists || !netlistExists
    ensures AnalyzePower(code, task, dumpExists, netlistExists, template, run1, toMilliwatts)
         == AnalyzePower(code, task, dumpExists, netlistExists, template, run2, toMilliwatts)
    ensures AnalyzePower(code, task, dumpExists, netlistExists, template, run1, toMilliwatts).Err?
  {
  }
}

=== FILE: scan.dfy ===
/** Scanning primitives with the semantics of Python's `re.search`:
    a pattern is tried at every position from the left and the first
    position where it matches wins. */
module Scan {
  import opened Outcomes
  import opened Chars

  /** The least `k` in `[lo, hi)` satisfying `P`, if there is one. */
  function FindFirst(P: nat -> bool, lo: nat, hi: nat): (r: Option<nat>)
    ensures r.Some? ==> lo <= r.value < hi && P(r.value)
    ensures r.Some? ==> forall k :: lo <= k < r.value ==> !P(k)
    ensures r.None? ==> forall k :: lo <= k < hi ==> !P(k)
    decreases hi - lo
  {
    if lo >= hi then None
    else if P(lo) then Some(lo)
    else FindFirst(P, lo + 1, hi)
  }

  /** `w` occurs in `s` starting at position `i`. */
  predicate OccursAt(s: string, w: string, i: nat) {
    i + |w| <= |s| && s[i..i + |w|] == w
  }

  predicate StartsWith(s: string, w: string) {
    |w| <= |s| && s[..|w|] == w
  }

  /** `w` is a substring of `s` (what `re.search` of a literal pattern tests). */
  ghost predicate Contains(s: string, w: string) {
    exists i: nat :: OccursAt(s, w, i)
  }

  /** The leftmost occurrence of `w` in `s`. */
  function Find(s: string, w: string): (r: Option<nat>)
    ensures r.Some? <==> Contains(s, w)
    ensures r.Some? ==> OccursAt(s, w, r.value)
    ensures r.Some? ==> forall j: nat :: j < r.value ==> !OccursAt(s, w, j)
  {
    var r := FindFirst((i: nat) => OccursAt(s, w, i), 0, |s| + 1);
    assert r.None? ==> forall i: nat :: !OccursAt(s, w, i) by {
      if r.None? {
        forall i: nat ensures !OccursAt(s, w, i) {
          if i <= |s| {
            assert !(((j: nat) => OccursAt(s, w, j))(i));
          }
        }
      }
    }
    assert r.Some? ==> forall j: nat :: j < r.value ==> !OccursAt(s, w, j) by {
      if r.Some? {
        forall j: nat | j < r.value ensures !OccursAt(s, w, j) {
          assert !(((i: nat) => OccursAt(s, w, i))(j));
        }
      }
    }
    r
  }

  /** The end of the maximal run of characters satisfying `P` that starts at `i`
      (a greedy `P*` that no later part of a pattern can shorten). */
  function SpanWhile(P: char -> bool, s: string, i: nat): (j: nat)
    requires i <= |s|
    ensures i <= j <= |s|
    ensures forall k :: i <= k < j ==> P(s[k])
    ensures j == |s| || !P(s[j])
    decreases |s| - i
  {
    if i < |s| && P(s[i]) then SpanWhile(P, s, i + 1) else i
  }

  /** A word without line breaks occurs in two texts joined by a line feed
      only if it occurs in one of them. */
  lemma NotAcrossLineFeed(a: string, b: string, w: string)
    requires NoLineBreak(w) && !Contains(a, w) && !Contains(b, w)
    ensures !Contains(a + "\n" + b, w)
  {
    var s := a + "\n" + b;
    forall i: nat ensures !OccursAt(s, w, i) {
      if i + |w| <= |s| {
        if i + |w| <= |a| {
          assert s[i..i + |w|] == a[i..i + |w|];
          assert !OccursAt(a, w, i);
        } else if i <= |a| {
          assert s[i..i + |w|][|a| - i] == '\n';
          assert !IsLineBreak(w[|a| - i]);
        } else {
          assert s[i..i + |w|] == b[i - |a| - 1..i - |a| - 1 + |w|];
          assert !OccursAt(b, w, i - |a| - 1);
        }
      }
    }
  }

  /** A word without line breaks that occurs right after a line feed, and not
      in the text before it, is first found there. */
  lemma FindAtLineStart(s: string, k: nat, w: string)
    requires 0 < k && OccursAt(s, w, k) && s[k - 1] == '\n'
    requires NoLineBreak(w) && !Contains(s[..k], w)
    ensures Find(s, w) == Some(k)
  {
    forall j: nat | j < k ensures !OccursAt(s, w, j) {
      if j + |w| <= k {
        assert s[j..j + |w|] == s[..k][j..j + |w|];
        assert !OccursAt(s[..k], w, j);
      } else if j + |w| <= |s| {
        assert s[j..j + |w|][k - 1 - j] == s[k - 1];
        assert !IsLineBreak(w[k - 1 - j]);
      }
    }
    var r := Find(s, w);
    assert r.value <= k;
  }

  /** A span is determined by its two defining properties. */
  lemma SpanWhileUnique(P: char -> bool, s: string, i: nat, j: nat)
    requires i <= j <= |s|
    requires forall k :: i <= k < j ==> P(s[k])
    requires j == |s| || !P(s[j])
    ensures SpanWhile(P, s, i) == j
  {
  }

  /** A string is the concatenation of its consecutive slices. */
  lemma Reassemble(s: string, i: nat, j: nat, k: nat, e: nat)
    requires i <= j <= k <= e <= |s|
    ensures s == s[..i] + s[i..j] + s[j..k] + s[k..e] + s[e..]
  {
    assert s[..e] == s[..k] + s[k..e];
    assert s[..k] == s[..j] + s[j..k];
    assert s[..j] == s[..i] + s[i..j];
  }

  /** One attempt of the regular expression `kw\s{min,}(\d+)` at position `p`,
      yielding the captured digits. Since a digit is never whitespace, the greedy
      whitespace run never needs to give characters back, and the greedy digit
      run is the maximal one. */
  function NumberAt(s: string, kw: string, minSpaces: nat, p: nat): (r: Option<string>)
    ensures r.Some? ==> |r.value| > 0 && AllDigits(r.value)
  {
    if !OccursAt(s, kw, p) then None
    else
      var q := SpanWhile(IsSpace, s, p + |kw|);
      if q - (p + |kw|) < minSpaces || q == |s| || !IsDigit(s[q]) then None
      else Some(s[q..SpanWhile(IsDigit, s, q)])
  }

  /** The text at `p` is the keyword, a run of at least `minSpaces` whitespace
      characters, a maximal non-empty run of digits, and the rest. */
  ghost predicate NumberShape(s: string, kw: string, minSpaces: nat, p: nat, ws: string, digits: string, rest: string) {
    && p <= |s| && s[p..] == kw + ws + digits + rest
    && AllSpace(ws) && |ws| >= minSpaces
    && |digits| > 0 && AllDigits(digits)
    && (rest == [] || !IsDigit(rest[0]))
  }

  /** The regex attempt at `p` succeeds with `digits` when the text at `p` has the
      shape `NumberShape` describes. */
  lemma NumberAtDecomposition(s: string, kw: string, minSpaces: nat, p: nat, ws: string, digits: string, rest: string)
    requires NumberShape(s, kw, minSpaces, p, ws, digits, rest)
    ensures NumberAt(s, kw, minSpaces, p) == Some(digits)
  {
    var a := p + |kw|;
    var b := a + |ws|;
    var c := b + |digits|;
    SuffixParts(s, p, kw, ws, digits, rest);
    assert OccursAt(s, kw, p);
    assert c == |s| || !IsDigit(s[c]) by {
      if c < |s| {
        assert s[c] == s[c..][0];
      }
    }
    NumberSpans(s, a, b, c);
  }

  /** Where the two spans of `NumberAt` end when whitespace runs from `a` to `b`
      and a maximal digit run from `b` to `c`. */
  lemma NumberSpans(s: string, a: nat, b: nat, c: nat)
    requires a <= b < c <= |s| && AllSpace(s[a..b]) && AllDigits(s[b..c])
    requires c == |s| || !IsDigit(s[c])
    ensures SpanWhile(IsSpace, s, a) == b && SpanWhile(IsDigit, s, b) == c && IsDigit(s[b])
  {
    forall k | a <= k < b ensures IsSpace(s[k]) {
      assert s[k] == s[a..b][k - a];
    }
    assert s[b] == s[b..c][0];
    SpanWhileUnique(IsSpace, s, a, b);
    forall k | b <= k < c ensures IsDigit(s[k]) {
      assert s[k] == s[b..c][k - b];
    }
    SpanWhileUnique(IsDigit, s, b, c);
  }

  /** The converse of `NumberAtDecomposition`: a successful attempt at `p`
      captures exactly the maximal digit run that follows the keyword and at
      least `minSpaces` whitespace characters. */
  lemma NumberAtSound(s: string, kw: string, minSpaces: nat, p: nat)
    requires NumberAt(s, kw, minSpaces, p).Some?
    ensures exists ws: string, rest: string :: NumberShape(s, kw, minSpaces, p, ws, NumberAt(s, kw, minSpaces, p).value, rest)
  {
    var a := p + |kw|;
    var b := SpanWhile(IsSpace, s, a);
    var c := SpanWhile(IsDigit, s, b);
    var ws := s[a..b];
    var digits := s[b..c];
    var rest := s[c..];
    assert NumberAt(s, kw, minSpaces, p).value == digits;
    assert s[p..a] == kw;
    assert AllSpace(ws) by {
      forall k | 0 <= k < |ws| ensures IsSpace(ws[k]) {
        assert ws[k] == s[a + k];
      }
    }
    assert rest == [] || !IsDigit(rest[0]) by {
      if rest != [] {
        assert rest[0] == s[c];
      }
    }
    SuffixSlices(s, p, a, b, c);
    assert s[p..] == kw + ws + digits + rest;
    assert NumberShape(s, kw, minSpaces, p, ws, digits, rest);
  }

  /** A suffix of `s` is the concatenation of its consecutive slices. */
  lemma SuffixSlices(s: string, p: nat, a: nat, b: nat, c: nat)
    requires p <= a <= b <= c <= |s|
    ensures s[p..] == s[p..a] + s[a..b] + s[b..c] + s[c..]
  {
    assert s[p..] == s[p..c] + s[c..];
    assert s[p..c] == s[p..b] + s[b..c];
    assert s[p..b] == s[p..a] + s[a..b];
  }

  /** Where the parts of a suffix of `s` lie in `s`. */
  lemma SuffixParts(s: string, p: nat, kw: string, ws: string, digits: string, rest: string)
    requires p <= |s| && s[p..] == kw + ws + digits + rest
    ensures var a := p + |kw|;
            var b := a + |ws|;
            var c := b + |digits|;
            && c <= |s|
            && s[p..a] == kw && s[a..b] == ws && s[b..c] == digits && s[c..] == rest
  {
    var t := s[p..];
    var a := |kw|;
    var b := a + |ws|;
    var c := b + |digits|;
    assert t[..a] == kw;
    assert t[a..b] == ws;
    assert t[b..c] == digits;
    assert t[c..] == rest;
    assert s[p..p + a] == t[..a];
    assert s[p + a..p + b] == t[a..b];
    assert s[p + b..p + c] == t[b..c];
    assert s[p + c..] == t[c..];
  }

  /** The leftmost successful attempt of `kw\s{min,}(\d+)`, as `re.search` finds it. */
  function SearchNumber(s: string, kw: string, minSpaces: nat): (r: Option<string>)
    ensures r.Some? ==> |r.value| > 0 && AllDigits(r.value)
    ensures r.None? <==> forall p: nat :: NumberAt(s, kw, minSpaces, p).None?
    ensures r.Some? ==> exists p: nat :: NumberAt(s, kw, minSpaces, p) == r
                          && forall q: nat :: q < p ==> NumberAt(s, kw, minSpaces, q).None?
  {
    var found := FindFirst((p: nat) => NumberAt(s, kw, minSpaces, p).Some?, 0, |s| + 1);
    if found.None? then
      assert forall p: nat :: NumberAt(s, kw, minSpaces, p).None? by {
        forall p: nat ensures NumberAt(s, kw, minSpaces, p).None? {
          if p <= |s| {
            assert !(((q: nat) => NumberAt(s, kw, minSpaces, q).Some?)(p));
          }
        }
      }
      None
    else
      var p := found.value;
      assert forall q: nat :: q < p ==> NumberAt(s, kw, minSpaces, q).None? by {
        forall q: nat | q < p ensures NumberAt(s, kw, minSpaces, q).None? {
          assert !(((x: nat) => NumberAt(s, kw, minSpaces, x).Some?)(q));
        }
      }
      NumberAt(s, kw, minSpaces, p)
  }

  /** An attempt that succeeds where no earlier one does is the one `SearchNumber` reports. */
  lemma SearchNumberFirst(s: string, kw: string, minSpaces: nat, p: nat, v: string)
    requires NumberAt(s, kw, minSpaces, p) == Some(v)
    requires forall q: nat :: q < p ==> NumberAt(s, kw, minSpaces, q).None?
    ensures SearchNumber(s, kw, minSpaces) == Some(v)
  {
    var r := SearchNumber(s, kw, minSpaces);
    var p' :| NumberAt(s, kw, minSpaces, p') == r && forall q: nat :: q < p' ==> NumberAt(s, kw, minSpaces, q).None?;
  }
}

=== FILE: seqs.dfy ===
/** Small facts about sequences, stated for any element type so that the
    solver never compares the elements themselves. */
module Seqs {
  lemma SplitFirst<T>(s: seq<T>)
    requires |s| > 0
    ensures s == [s[0]] + s[1..]
  {
  }

  lemma SplitLast<T>(s: seq<T>)
    requires |s| > 0
    ensures s == s[..|s| - 1] + [s[|s| - 1]]
  {
  }

  lemma ConsAppend<T>(x: T, a: seq<T>, b: seq<T>)
    ensures [x] + (a + b) == [x] + a + b
  {
  }

  lemma AppendAssoc<T>(a: seq<T>, b: seq<T>, c: seq<T>)
    ensures a + (b + c) == a + b + c
  {
  }
}

=== FILE: sim.dfy ===
/** The Icarus Verilog wrapper: reading the simulator output, and turning the
    outcomes of the compile and simulate steps into the report text. */
module Sim {
  import opened Outcomes
  import opened Chars
  import opened Scan
  import opened Verilog

  const TimeKeyword: string := "TIME:"
  const FailedMarker: string := "FAILED"
  const PassedMarker: string := "PASSED"

  const CompileErrorHeader: string :=
    "Icarus Verilog gave an error" + " during compilation. " + PleaseFix
  const SimulationErrorHeader: string :=
    "Icarus Verilog simulator gave an error" + " during simulation. " + PleaseFix
  const PassedHeader: string := "The simulation passed successfully\n" + "Execution time (ns) == "

  /** The execution time: the digits captured by the leftmost match of
      `TIME:\s*(\d+)`, or TimeNotFound. */
  function ExtractPerf(output: string): (r: Result<string>)
    ensures r.Ok? ==> |r.value| > 0 && AllDigits(r.value)
    ensures r.Err? <==> forall p: nat :: NumberAt(output, TimeKeyword, 0, p).None?
    ensures r.Err? ==> r.error == TimeNotFound
    ensures r.Ok? ==> exists p: nat :: NumberAt(output, TimeKeyword, 0, p) == Some(r.value)
                                    && forall q: nat :: q < p ==> NumberAt(output, TimeKeyword, 0, q).None?
  {
    SearchNumber(output, TimeKeyword, 0).ToResult(TimeNotFound)
  }

  /** When the first `TIME:` of the output is followed by optional whitespace and
      digits, those digits (all of them) are the execution time. */
  lemma PerfOfFirstTime(pre: string, ws: string, digits: string, rest: string)
    requires !Contains(pre, TimeKeyword)
    requires AllSpace(ws) && |digits| > 0 && AllDigits(digits)
    requires rest == [] || !IsDigit(rest[0])
    ensures ExtractPerf(pre + TimeKeyword + ws + digits + rest) == Ok(digits)
  {
    var tail := TimeKeyword + ws + digits + rest;
    var s := pre + TimeKeyword + ws + digits + rest;
    assert s == pre + tail;
    assert s[|pre|..] == tail;
    NumberAtDecomposition(s, TimeKeyword, 0, |pre|, ws, digits, rest);
    forall q: nat | q < |pre| ensures NumberAt(s, TimeKeyword, 0, q).None? {
      NotBeforeFirst(pre, tail, q);
    }
    SearchNumberFirst(s, TimeKeyword, 0, |pre|, digits);
  }

  lemma NotBeforeFirst(pre: string, tail: string, q: nat)
    requires !Contains(pre, TimeKeyword) && StartsWith(tail, TimeKeyword) && q < |pre|
    ensures !OccursAt(pre + tail, TimeKeyword, q)
  {
    var s := pre + tail;
    if q + |TimeKeyword| <= |pre| {
      assert s[q..q + |TimeKeyword|] == pre[q..q + |TimeKeyword|];
      assert !OccursAt(pre, TimeKeyword, q);
    } else {
      var d := |pre| - q;
      assert s[|pre|] == 'T' && 1 <= d < |TimeKeyword|;
      assert TimeKeyword[d] != 'T';
      if q + |TimeKeyword| <= |s| {
        assert s[q..q + |TimeKeyword|][d] == 'T';
      }
    }
  }

  /** Whether the simulation failed: FAILED anywhere wins over PASSED; with
      neither, SimResultNotFound. */
  function ExtractFailedSim(output: string): (r: Result<bool>)
    ensures r == Ok(true) <==> Contains(output, FailedMarker)
    ensures r == Ok(false) <==> !Contains(output, FailedMarker) && Contains(output, PassedMarker)
    ensures r.Err? <==> !Contains(output, FailedMarker) && !Contains(output, PassedMarker)
    ensures r.Err? ==> r.error == SimResultNotFound
  {
    if Find(output, FailedMarker).Some? then Ok(true)
    else if Find(output, PassedMarker).Some? then Ok(false)
    else Err(SimResultNotFound)
  }

  /** The simulation report for `code`, given how the compile step (`iverilog`
      on the code and the task's testbench) and the simulate step (`vvp`) ended.
      Only the subprocess errors are turned into report text; the exceptions of
      the output readers propagate. */
  function Simulate(code: string, compile: Run, simulate: Run): (r: Result<string>)
    ensures ExtractModuleName(code).Err? ==> r == Err(ModuleNameNotFound)
    ensures ExtractModuleName(code).Ok? && compile.Errored? ==> r == Ok(CompileErrorHeader + compile.output)
    ensures ExtractModuleName(code).Ok? && compile.Completed? ==>
              && ((simulate.Errored? || Contains(simulate.output, FailedMarker)) ==>
                    r == Ok(SimulationErrorHeader + simulate.output))
              && (simulate.Completed? && !Contains(simulate.output, FailedMarker) ==>
                    (if !Contains(simulate.output, PassedMarker) then r == Err(SimResultNotFound)
                     else if ExtractPerf(simulate.output).Err? then r == Err(TimeNotFound)
                     else r == Ok(PassedHeader + ExtractPerf(simulate.output).value)))
  {
    var _ :- ExtractModuleName(code);
    match compile
    case Errored(out) => Ok(CompileErrorHeader + out)
    case Completed(_) =>
      match simulate
      case Errored(out) => Ok(SimulationErrorHeader + out)
      case Completed(out) =>
        var failed :- ExtractFailedSim(out);
        if failed then Ok(SimulationErrorHeader + out)
        else
          var perf :- ExtractPerf(out);
          Ok(PassedHeader + perf)
  }

  /** A compile error decides the report whatever the simulator would do. */
  lemma CompileErrorSkipsSimulator(code: string, out: string, sim1: Run, sim2: Run)
    ensures Simulate(code, Errored(out), sim1) == Simulate(code, Errored(out), sim2)
  {
  }

  /** The report is a pass exactly when the code has a module header, both steps
      exit cleanly, the output says PASSED and not FAILED, and it reports a time. */
  lemma SimulationPassesExactly(code: string, compile: Run, simulate: Run)
    ensures (Simulate(code, compile, simulate).Ok? &&
             StartsWith(Simulate(code, compile, simulate).value, PassedHeader))
        <==> && ExtractModuleName(code).Ok? && compile.Completed? && simulate.Completed?
             && !Contains(simulate.output, FailedMarker) && Contains(simulate.output, PassedMarker)
             && ExtractPerf(simulate.output).Ok?
  {
    if ExtractModuleName(code).Ok? && compile.Errored? {
      assert (CompileErrorHeader + compile.output)[0] != PassedHeader[0];
    }
    if ExtractModuleName(code).Ok? && compile.Completed? &&
       (simulate.Errored? || Contains(simulate.output, FailedMarker)) {
      assert (SimulationErrorHeader + simulate.output)[0] != PassedHeader[0];
    }
  }
}

=== FILE: synth.dfy ===
/** The Yosys wrapper: reading the cell count from the synthesis log, and
    turning the outcome of the synthesis run into the report text. */
module Synth {
  import opened Outcomes
  import opened Chars
  import opened Scan
  import opened Verilog

  const AreaKeyword: string := "Number of cells:"

  const SynthesisErrorHeader: string := "Yosys gave an error during synthesis. " + PleaseFix
  const PassedHeader: string := "The synthesis completed successfully\n" + "Area (number of cells) == "

  /** The area: the digits captured by the leftmost match of
      `Number of cells:\s+(\d+)`, or AreaNotFound. */
  function ExtractArea(output: string): (r: Result<string>)
    ensures r.Ok? ==> |r.value| > 0 && AllDigits(r.value)
    ensures r.Err? <==> forall p: nat :: NumberAt(output, AreaKeyword, 1, p).None?
    ensures r.Err? ==> r.error == AreaNotFound
    ensures r.Ok? ==> exists p: nat :: NumberAt(output, AreaKeyword, 1, p) == Some(r.value)
                                    && forall q: nat :: q < p ==> NumberAt(output, AreaKeyword, 1, q).None?
  {
    SearchNumber(output, AreaKeyword, 1).ToResult(AreaNotFound)
  }

  /** When every `Number of cells:` is directly followed by a non-whitespace
      character (or ends the output), there is no area: the pattern needs at
      least one whitespace character before the digits. */
  lemma AreaNeedsWhitespace(output: string)
    requires forall p: nat :: OccursAt(output, AreaKeyword, p) ==>
               p + |AreaKeyword| == |output| || !IsSpace(output[p + |AreaKeyword|])
    ensures ExtractArea(output) == Err(AreaNotFound)
  {
    forall p: nat ensures NumberAt(output, AreaKeyword, 1, p).None? {
      if OccursAt(output, AreaKeyword, p) {
        var a := p + |AreaKeyword|;
        SpanWhileUnique(IsSpace, output, a, a);
      }
    }
  }

  /** `Number of cells:12` carries no area. */
  lemma GluedCountHasNoArea()
    ensures ExtractArea(AreaKeyword + "12") == Err(AreaNotFound)
  {
    var s := AreaKeyword + "12";
    forall p: nat | OccursAt(s, AreaKeyword, p)
      ensures p + |AreaKeyword| == |s| || !IsSpace(s[p + |AreaKeyword|])
    {
      assert s[|AreaKeyword|] == '1' && s[|AreaKeyword| + 1] == '2';
    }
    AreaNeedsWhitespace(s);
  }

  /** The synthesis report for `code`, given how the Yosys run ended. Only the
      subprocess error is turned into report text; a missing area propagates. */
  function Synthesize(code: string, yosys: Run): (r: Result<string>)
    ensures ExtractModuleName(code).Err? ==> r == Err(ModuleNameNotFound)
    ensures ExtractModuleName(code).Ok? && yosys.Errored? ==> r == Ok(SynthesisErrorHeader + yosys.output)
    ensures ExtractModuleName(code).Ok? && yosys.Completed? ==>
              (if ExtractArea(yosys.output).Err? then r == Err(AreaNotFound)
               else r == Ok(PassedHeader + ExtractArea(yosys.output).value))
  {
    var _ :- ExtractModuleName(code);
    match yosys
    case Errored(out) => Ok(SynthesisErrorHeader + out)
    case Completed(out) =>
      var area :- ExtractArea(out);
      Ok(PassedHeader + area)
  }

  /** The report is a pass exactly when the code has a module header, Yosys
      exits cleanly and its log states a cell count. */
  lemma SynthesisPassesExactly(code: string, yosys: Run)
    ensures (Synthesize(code, yosys).Ok? && StartsWith(Synthesize(code, yosys).value, PassedHeader))
        <==> ExtractModuleName(code).Ok? && yosys.Completed? && ExtractArea(yosys.output).Ok?
  {
    if ExtractModuleName(code).Ok? && yosys.Errored? {
      assert (SynthesisErrorHeader + yosys.output)[0] != PassedHeader[0];
    }
  }
}

=== FILE: text.dfy ===
/** The Python `str` methods the tool wrappers rely on: `strip`, `split()`,
    `splitlines`, `replace` and `str(int)`. */
module Text {
  import opened Chars
  import opened Scan
  import opened Seqs

  /** `s.lstrip()`: the suffix of `s` left after dropping leading whitespace. */
  function TrimStart(s: string): (r: string)
    ensures |r| <= |s| && r == s[|s| - |r|..]
    ensures AllSpace(s[..|s| - |r|])
    ensures r == [] || !IsSpace(r[0])
  {
    s[SpanWhile(IsSpace, s, 0)..]
  }

  /** `s.rstrip()`: the prefix of `s` left after dropping trailing whitespace. */
  function TrimEnd(s: string): (r: string)
    ensures |r| <= |s| && r == s[..|r|]
    ensures AllSpace(s[|r|..])
    ensures r == [] || !IsSpace(r[|r| - 1])
  {
    if |s| > 0 && IsSpace(s[|s| - 1]) then
      var r := TrimEnd(s[..|s| - 1]);
      assert s[|r|..] == s[..|s| - 1][|r|..] + [s[|s| - 1]];
      r
    else s
  }

  /** `s.strip()`: `s` without its leading and trailing whitespace. */
  function Strip(s: string): (r: string)
    ensures |r| <= |s|
    ensures r == [] || (!IsSpace(r[0]) && !IsSpace(r[|r| - 1]))
  {
    TrimEnd(TrimStart(s))
  }

  /** What `Strip` removes is whitespace on both sides of a slice of `s`. */
  lemma StripIsSlice(s: string)
    ensures exists i: nat :: i + |Strip(s)| <= |s| && s[i..i + |Strip(s)|] == Strip(s)
                            && AllSpace(s[..i]) && AllSpace(s[i + |Strip(s)|..])
  {
    var t := TrimStart(s);
    var r := TrimEnd(t);
    var i := |s| - |t|;
    assert s[i..i + |r|] == r;
    assert s[i + |r|..] == t[|r|..];
  }

  /** Stripping a string without whitespace changes nothing. */
  lemma StripNoSpace(s: string)
    requires NoSpace(s)
    ensures Strip(s) == s
  {
    assert SpanWhile(IsSpace, s, 0) == 0;
    assert TrimStart(s) == s;
  }

  /** `s.split()`: the maximal runs of non-whitespace characters, in order. */
  function Fields(s: string): (r: seq<string>)
    ensures forall k :: 0 <= k < |r| ==> |r[k]| > 0 && NoSpace(r[k])
    decreases |s|
  {
    if s == [] then []
    else if IsSpace(s[0]) then Fields(s[1..])
    else
      var j := SpanWhile(IsNonSpace, s, 0);
      [s[..j]] + Fields(s[j..])
  }

  /** `" ".join(parts)`. */
  function Unwords(parts: seq<string>): string {
    if |parts| == 0 then ""
    else if |parts| == 1 then parts[0]
    else parts[0] + " " + Unwords(parts[1..])
  }

  /** Splitting on whitespace undoes joining with single spaces, provided each
      part is a non-empty word. */
  lemma {:induction false} FieldsUnwords(parts: seq<string>)
    requires forall k :: 0 <= k < |parts| ==> |parts[k]| > 0 && NoSpace(parts[k])
    ensures Fields(Unwords(parts)) == parts
    decreases |parts|
  {
    if |parts| == 0 {
    } else {
      var w := parts[0];
      var s := Unwords(parts);
      var tail := if |parts| == 1 then "" else " " + Unwords(parts[1..]);
      assert s == w + tail;
      assert s[0] == w[0];
      forall k | 0 <= k < |w| ensures IsNonSpace(s[k]) {
        assert s[k] == w[k];
      }
      SpanWhileUnique(IsNonSpace, s, 0, |w|);
      assert s[..|w|] == w;
      assert s[|w|..] == tail;
      if |parts| == 1 {
        assert Fields(s) == [w] + Fields("");
      } else {
        assert tail[1..] == Unwords(parts[1..]);
        FieldsUnwords(parts[1..]);
        assert Fields(tail) == Fields(Unwords(parts[1..]));
        assert parts == [w] + parts[1..];
      }
    }
  }

  /** Words separated by runs of whitespace: `gaps[0]`, the first word,
      `gaps[1]`, and so on, ending with the last gap. */
  function Spaced(gaps: seq<string>, words: seq<string>): string
    requires |gaps| == |words| + 1
    decreases |words|
  {
    if |words| == 0 then gaps[0] else gaps[0] + words[0] + Spaced(gaps[1..], words[1..])
  }

  /** `split()` skips leading whitespace and takes the word up to the next
      whitespace character. */
  lemma {:induction false} FieldsCons(ws: string, w: string, rest: string)
    requires AllSpace(ws) && |w| > 0 && NoSpace(w)
    requires rest == [] || IsSpace(rest[0])
    ensures Fields(ws + w + rest) == [w] + Fields(rest)
    decreases |ws|
  {
    var s := ws + w + rest;
    if |ws| == 0 {
      assert s == w + rest;
      forall k | 0 <= k < |w| ensures IsNonSpace(s[k]) {
        assert s[k] == w[k];
      }
      SpanWhileUnique(IsNonSpace, s, 0, |w|);
      assert s[..|w|] == w;
      assert s[|w|..] == rest;
    } else {
      assert s[0] == ws[0];
      assert s[1..] == ws[1..] + w + rest;
      FieldsCons(ws[1..], w, rest);
    }
  }

  /** Whitespace alone has no fields. */
  lemma {:induction false} FieldsAllSpace(ws: string)
    requires AllSpace(ws)
    ensures Fields(ws) == []
    decreases |ws|
  {
    if |ws| > 0 {
      FieldsAllSpace(ws[1..]);
    }
  }

  /** Splitting on whitespace recovers the words, whatever whitespace runs
      separate them and whatever whitespace surrounds them. */
  lemma {:induction false} FieldsSpaced(gaps: seq<string>, words: seq<string>)
    requires |gaps| == |words| + 1
    requires forall k :: 0 <= k < |gaps| ==> AllSpace(gaps[k])
    requires forall k :: 0 < k < |words| ==> |gaps[k]| > 0
    requires forall k :: 0 <= k < |words| ==> |words[k]| > 0 && NoSpace(words[k])
    ensures Fields(Spaced(gaps, words)) == words
    decreases |words|
  {
    if |words| == 0 {
      FieldsAllSpace(gaps[0]);
    } else {
      var rest := Spaced(gaps[1..], words[1..]);
      SpacedStart(gaps[1..], words[1..]);
      FieldsCons(gaps[0], words[0], rest);
      FieldsSpaced(gaps[1..], words[1..]);
      assert words == [words[0]] + words[1..];
    }
  }

  /** Spaced words start with the first gap, or with the first word when that
      gap is empty. */
  lemma SpacedStart(gaps: seq<string>, words: seq<string>)
    requires |gaps| == |words| + 1
    requires forall k :: 0 <= k < |words| ==> |words[k]| > 0
    ensures var s := Spaced(gaps, words);
            && (|gaps[0]| > 0 ==> |s| > 0 && s[0] == gaps[0][0])
            && (|gaps[0]| == 0 && |words| > 0 ==> |s| > 0 && s[0] == words[0][0])
            && (|words| == 0 ==> s == gaps[0])
  {
  }

  /** `s.splitlines()`: lines without their terminators; `\r\n` is one terminator,
      and a final terminator does not start an empty line. */
  function SplitLines(s: string): (r: seq<string>)
    ensures forall k :: 0 <= k < |r| ==> NoLineBreak(r[k])
    decreases |s|
  {
    if s == [] then []
    else
      var k := SpanWhile(IsNotLineBreak, s, 0);
      var next :=
        if k == |s| then |s|
        else if s[k] == '\r' && k + 1 < |s| && s[k + 1] == '\n' then k + 2
        else k + 1;
      [s[..k]] + SplitLines(s[next..])
  }

  /** Each line followed by a line feed. */
  function Terminated(lines: seq<string>): string {
    if |lines| == 0 then "" else lines[0] + "\n" + Terminated(lines[1..])
  }

  /** Terminating lines distributes over joining the lists of lines. */
  lemma {:induction false} TerminatedAppend(a: seq<string>, b: seq<string>)
    ensures Terminated(a + b) == Terminated(a) + Terminated(b)
    decreases |a|
  {
    if |a| > 0 {
      assert (a + b)[1..] == a[1..] + b;
      TerminatedAppend(a[1..], b);
    } else {
      assert a + b == b;
    }
  }

  /** No line of `lines` contains `w`. */
  ghost predicate NoneContains(lines: seq<string>, w: string) {
    forall k :: 0 <= k < |lines| ==> !Contains(lines[k], w)
  }

  lemma NoneContainsAppend(a: seq<string>, b: seq<string>, w: string)
    requires NoneContains(a, w) && NoneContains(b, w)
    ensures NoneContains(a + b, w)
  {
    forall k | 0 <= k < |a + b| ensures !Contains((a + b)[k], w) {
      if k < |a| { assert (a + b)[k] == a[k]; } else { assert (a + b)[k] == b[k - |a|]; }
    }
  }

  /** A word without line breaks occurs in terminated lines only if it occurs
      in one of the lines. */
  lemma {:induction false} NotInTerminated(lines: seq<string>, w: string)
    requires |w| > 0 && NoLineBreak(w)
    requires NoneContains(lines, w)
    ensures !Contains(Terminated(lines), w)
    decreases |lines|
  {
    if |lines| > 0 {
      NotInTerminated(lines[1..], w);
      NotAcrossLineFeed(lines[0], Terminated(lines[1..]), w);
    }
  }

  /** A line followed by a line feed is split off as the first line. */
  lemma SplitLinesStep(l: string, rest: string)
    requires NoLineBreak(l)
    ensures SplitLines(l + "\n" + rest) == [l] + SplitLines(rest)
  {
    var s := l + "\n" + rest;
    forall k | 0 <= k < |l| ensures IsNotLineBreak(s[k]) {
      assert s[k] == l[k];
    }
    assert s[|l|] == '\n';
    SpanWhileUnique(IsNotLineBreak, s, 0, |l|);
    assert s[..|l|] == l;
    assert s[|l| + 1..] == rest;
  }

  /** Terminated lines in front of a text are split off as they are. */
  lemma {:induction false} SplitLinesPrefix(lines: seq<string>, rest: string)
    requires forall k :: 0 <= k < |lines| ==> NoLineBreak(lines[k])
    ensures SplitLines(Terminated(lines) + rest) == lines + SplitLines(rest)
    decreases |lines|
  {
    if |lines| == 0 {
      assert Terminated(lines) + rest == rest;
    } else {
      var tail := Terminated(lines[1..]) + rest;
      var s := Terminated(lines) + rest;
      assert s == lines[0] + "\n" + tail;
      SplitLinesStep(lines[0], tail);
      assert SplitLines(s) == [lines[0]] + SplitLines(tail);
      SplitLinesPrefix(lines[1..], rest);
      ConsAppend(lines[0], lines[1..], SplitLines(rest));
      SplitFirst(lines);
    }
  }

  /** Splitting into lines undoes terminating each line with a line feed. */
  lemma SplitLinesTerminated(lines: seq<string>)
    requires forall k :: 0 <= k < |lines| ==> NoLineBreak(lines[k])
    ensures SplitLines(Terminated(lines)) == lines
  {
    SplitLinesPrefix(lines, "");
    assert Terminated(lines) + "" == Terminated(lines);
  }

  /** A text without line breaks is one line, or none when it is empty. */
  lemma SplitLinesOne(last: string)
    requires NoLineBreak(last)
    ensures SplitLines(last) == if last == [] then [] else [last]
  {
    if last != [] {
      SpanWhileUnique(IsNotLineBreak, last, 0, |last|);
      assert last[..|last|] == last;
      assert last[|last|..] == [];
    }
  }

  /** Splitting into lines also recovers a last line that has no terminator. */
  lemma SplitLinesLastUnterminated(lines: seq<string>, last: string)
    requires forall k :: 0 <= k < |lines| ==> NoLineBreak(lines[k])
    requires NoLineBreak(last)
    ensures SplitLines(Terminated(lines) + last) == lines + (if last == [] then [] else [last])
  {
    SplitLinesPrefix(lines, last);
    SplitLinesOne(last);
  }

  /** `s.replace(pat, sub)`: every non-overlapping occurrence of `pat`, scanning
      from the left, is replaced by `sub`. */
  function Replace(s: string, pat: string, sub: string): (r: string)
    requires |pat| > 0
    ensures !Contains(s, pat) ==> r == s
    decreases |s|
  {
    if |s| < |pat| then s
    else if s[..|pat|] == pat then
      assert OccursAt(s, pat, 0);
      sub + Replace(s[|pat|..], pat, sub)
    else
      assert forall i: nat :: OccursAt(s[1..], pat, i) ==> OccursAt(s, pat, i + 1) by {
        forall i: nat | OccursAt(s[1..], pat, i) ensures OccursAt(s, pat, i + 1) {
          assert s[i + 1..i + 1 + |pat|] == s[1..][i..i + |pat|];
        }
      }
      [s[0]] + Replace(s[1..], pat, sub)
  }

  /** A text that is exactly the placeholder becomes exactly the substitute. */
  lemma ReplaceWhole(pat: string, sub: string)
    requires |pat| > 0
    ensures Replace(pat, pat, sub) == sub
  {
    assert pat[..|pat|] == pat;
    assert pat[|pat|..] == [];
  }

  /** Replacing a pattern by itself is the identity. */
  lemma {:induction false} ReplaceSelf(s: string, pat: string)
    requires |pat| > 0
    ensures Replace(s, pat, pat) == s
    decreases |s|
  {
    if |s| < |pat| {
    } else if s[..|pat|] == pat {
      ReplaceSelf(s[|pat|..], pat);
      assert s == s[..|pat|] + s[|pat|..];
    } else {
      ReplaceSelf(s[1..], pat);
      assert s == [s[0]] + s[1..];
    }
  }

  /** Text in front of which no occurrence of the pattern starts is copied
      unchanged, and the replacement continues after it. */
  lemma {:induction false} ReplaceFree(pre: string, rest: string, pat: string, sub: string)
    requires |pat| > 0
    requires forall i: nat :: i < |pre| ==> !OccursAt(pre + rest, pat, i)
    ensures Replace(pre + rest, pat, sub) == pre + Replace(rest, pat, sub)
    decreases |pre|
  {
    var s := pre + rest;
    if |pre| == 0 {
      assert s == rest;
    } else if |s| < |pat| {
      assert Replace(rest, pat, sub) == rest;
    } else {
      assert !OccursAt(s, pat, 0);
      assert s[1..] == pre[1..] + rest;
      forall i: nat | i < |pre[1..]| ensures !OccursAt(pre[1..] + rest, pat, i) {
        assert !OccursAt(s, pat, i + 1);
        if i + |pat| <= |s[1..]| {
          assert s[i + 1..i + 1 + |pat|] == s[1..][i..i + |pat|];
        }
      }
      ReplaceFree(pre[1..], rest, pat, sub);
      assert pre == [pre[0]] + pre[1..];
    }
  }

  /** An occurrence of the pattern that is the first one is replaced by the
      substitute, the text before it is kept, and the replacement continues
      after it. */
  lemma ReplaceSplice(pre: string, post: string, pat: string, sub: string)
    requires |pat| > 0
    requires forall i: nat :: i < |pre| ==> !OccursAt(pre + pat + post, pat, i)
    ensures Replace(pre + pat + post, pat, sub) == pre + sub + Replace(post, pat, sub)
  {
    assert pre + pat + post == pre + (pat + post);
    ReplaceFree(pre, pat + post, pat, sub);
    assert (pat + post)[..|pat|] == pat;
    assert (pat + post)[|pat|..] == post;
  }

  /** The first character of the pattern occurs nowhere else in it, so two
      occurrences never overlap and none can start inside another. */
  predicate FirstCharUnique(pat: string) {
    |pat| > 0 && forall d :: 1 <= d < |pat| ==> pat[d] != pat[0]
  }

  /** If `pre` does not contain such a pattern, and what follows `pre` begins
      with the pattern's first character, no occurrence starts inside `pre`. */
  lemma NoneStartsBefore(pre: string, rest: string, pat: string)
    requires FirstCharUnique(pat) && !Contains(pre, pat)
    requires |rest| > 0 && rest[0] == pat[0]
    ensures forall i: nat :: i < |pre| ==> !OccursAt(pre + rest, pat, i)
  {
    var s := pre + rest;
    forall i: nat | i < |pre| ensures !OccursAt(s, pat, i) {
      if i + |pat| <= |pre| {
        assert s[i..i + |pat|] == pre[i..i + |pat|];
        assert !OccursAt(pre, pat, i);
      } else if i + |pat| <= |s| {
        var d := |pre| - i;
        assert s[i..i + |pat|][d] == rest[0];
        assert pat[d] != pat[0];
      }
    }
  }

  /** The ASCII digit for `d`. */
  function DigitChar(d: nat): (c: char)
    requires d < 10
    ensures IsDigit(c)
  {
    (48 + d) as char
  }

  /** The value of an ASCII digit. */
  function DigitValue(c: char): (d: nat)
    requires IsDigit(c)
    ensures d < 10 && DigitChar(d) == c
  {
    (c as int - 48) as nat
  }

  /** `str(n)` for a natural number: decimal digits, most significant first,
      without leading zeros. */
  function NatToDecimal(n: nat): (r: string)
    ensures |r| > 0 && AllDigits(r)
    ensures r[0] == '0' ==> n == 0
    decreases n
  {
    if n < 10 then [DigitChar(n)] else NatToDecimal(n / 10) + [DigitChar(n % 10)]
  }

  /** `str(i)` for any integer. */
  function IntToDecimal(i: int): (r: string)
    ensures |r| > 0
    ensures i < 0 <==> r[0] == '-'
  {
    if i < 0 then "-" + NatToDecimal(-i) else NatToDecimal(i)
  }

  /** The number a string of decimal digits denotes. */
  function DecimalValue(s: string): nat
    requires AllDigits(s)
  {
    if s == [] then 0 else 10 * DecimalValue(s[..|s| - 1]) + DigitValue(s[|s| - 1])
  }

  /** Reading back the decimal text of `n` yields `n`. */
  lemma {:induction false} DecimalRoundTrip(n: nat)
    ensures DecimalValue(NatToDecimal(n)) == n
    decreases n
  {
    if n >= 10 {
      var s := NatToDecimal(n);
      assert s[..|s| - 1] == NatToDecimal(n / 10);
      DecimalRoundTrip(n / 10);
      assert DigitValue(DigitChar(n % 10)) == n % 10;
    } else {
      assert DigitValue(DigitChar(n)) == n;
    }
  }

  /** The text of `i` is its decimal value, after a minus sign when `i` is
      negative, with no leading zero unless the number is zero. */
  lemma IntToDecimalValue(i: int)
    ensures var r := IntToDecimal(i);
            && (i >= 0 ==> AllDigits(r) && DecimalValue(r) == i && (r[0] == '0' ==> i == 0))
            && (i < 0 ==> |r| > 1 && AllDigits(r[1..]) && DecimalValue(r[1..]) == -i && r[1] != '0')
  {
    if i < 0 {
      assert IntToDecimal(i)[1..] == NatToDecimal(-i);
      DecimalRoundTrip(-i);
    } else {
      DecimalRoundTrip(i);
    }
  }
}

=== FILE: verilog.dfy ===
/** Reading the module name from Verilog source: the anchored pattern
    `^\s*module\s+(\S+)` without MULTILINE, so `^` is the start of the text. */
module Verilog {
  import opened Outcomes
  import opened Chars
  import opened Scan
  import opened Text

  const Keyword: string := "module"

  /** The name following the leading `module` keyword, or ModuleNameNotFound. */
  function ExtractModuleName(code: string): (r: Result<string>)
    ensures r.Err? ==> r.error == ModuleNameNotFound
  {
    var i := SpanWhile(IsSpace, code, 0);
    if !OccursAt(code, Keyword, i) then Err(ModuleNameNotFound)
    else
      var j := i + |Keyword|;
      var k := SpanWhile(IsSpace, code, j);
      if k == j || k == |code| then Err(ModuleNameNotFound)
      else
        var name := code[k..SpanWhile(IsNonSpace, code, k)];
        Ok(Strip(name))
  }

  /** `code` is leading whitespace, the keyword, a non-empty whitespace gap, the
      name as a maximal non-whitespace run, and anything after it. */
  ghost predicate IsHeader(code: string, lead: string, gap: string, name: string, rest: string) {
    && code == lead + Keyword + gap + name + rest
    && AllSpace(lead)
    && |gap| > 0 && AllSpace(gap)
    && |name| > 0 && NoSpace(name)
    && (rest == [] || IsSpace(rest[0]))
  }

  /** Where the pieces of the header lie in `code` when a name is returned. */
  lemma HeaderBounds(code: string) returns (i: nat, k: nat, e: nat)
    requires ExtractModuleName(code).Ok?
    ensures i + |Keyword| < k < e <= |code|
    ensures AllSpace(code[..i]) && code[i..i + |Keyword|] == Keyword && AllSpace(code[i + |Keyword|..k])
    ensures ExtractModuleName(code).value == code[k..e] && NoSpace(code[k..e])
    ensures e == |code| || IsSpace(code[e])
  {
    i := SpanWhile(IsSpace, code, 0);
    k := SpanWhile(IsSpace, code, i + |Keyword|);
    e := SpanWhile(IsNonSpace, code, k);
    OkShape(code);
    SpanBounds(code, i, k, e);
  }

  /** The facts about the three spans that do not depend on the result. */
  lemma SpanBounds(code: string, i: nat, k: nat, e: nat)
    requires i == SpanWhile(IsSpace, code, 0) && OccursAt(code, Keyword, i)
    requires k == SpanWhile(IsSpace, code, i + |Keyword|) && e == SpanWhile(IsNonSpace, code, k)
    ensures AllSpace(code[..i]) && code[i..i + |Keyword|] == Keyword && AllSpace(code[i + |Keyword|..k])
    ensures e == |code| || IsSpace(code[e])
  {
    SpaceSpan(code, 0);
    assert code[..i] == code[0..i];
    SpaceSpan(code, i + |Keyword|);
  }

  /** What a returned name tells about the three spans the scan computes. */
  lemma OkShape(code: string)
    requires ExtractModuleName(code).Ok?
    ensures var i := SpanWhile(IsSpace, code, 0);
            var k := SpanWhile(IsSpace, code, i + |Keyword|);
            var e := SpanWhile(IsNonSpace, code, k);
            && OccursAt(code, Keyword, i) && k != i + |Keyword| && k < e
            && ExtractModuleName(code).value == code[k..e] && NoSpace(code[k..e])
  {
    var i := SpanWhile(IsSpace, code, 0);
    var k := SpanWhile(IsSpace, code, i + |Keyword|);
    var e := SpanWhile(IsNonSpace, code, k);
    assert OccursAt(code, Keyword, i) && k != i + |Keyword| && k != |code|;
    assert ExtractModuleName(code) == Ok(Strip(code[k..e]));
    NonSpaceSpan(code, k);
    StripNoSpace(code[k..e]);
    assert IsNonSpace(code[k]);
  }

  /** A non-whitespace span has no whitespace. */
  lemma NonSpaceSpan(code: string, a: nat)
    requires a <= |code|
    ensures NoSpace(code[a..SpanWhile(IsNonSpace, code, a)])
  {
    var b := SpanWhile(IsNonSpace, code, a);
    forall x | 0 <= x < b - a ensures !IsSpace(code[a..b][x]) {
      assert code[a..b][x] == code[a + x];
    }
  }

  /** A whitespace span is all whitespace. */
  lemma SpaceSpan(code: string, a: nat)
    requires a <= |code|
    ensures AllSpace(code[a..SpanWhile(IsSpace, code, a)])
  {
    var b := SpanWhile(IsSpace, code, a);
    forall x | 0 <= x < b - a ensures IsSpace(code[a..b][x]) {
      assert code[a..b][x] == code[a + x];
    }
  }

  /** Every name that is returned comes from such a header. */
  lemma ModuleNameSound(code: string)
    requires ExtractModuleName(code).Ok?
    ensures exists lead, gap, rest :: IsHeader(code, lead, gap, ExtractModuleName(code).value, rest)
  {
    var i, k, e := HeaderBounds(code);
    HeaderAt(code, i, k, e, ExtractModuleName(code).value);
  }

  /** Spans laid out as `HeaderBounds` finds them form a header. */
  lemma HeaderAt(code: string, i: nat, k: nat, e: nat, name: string)
    requires i + |Keyword| < k < e <= |code| && name == code[k..e]
    requires AllSpace(code[..i]) && code[i..i + |Keyword|] == Keyword && AllSpace(code[i + |Keyword|..k])
    requires NoSpace(code[k..e]) && (e == |code| || IsSpace(code[e]))
    ensures exists lead, gap, rest :: IsHeader(code, lead, gap, name, rest)
  {
    HeaderSlices(code, i, k, e);
  }

  lemma HeaderSlices(code: string, i: nat, k: nat, e: nat)
    requires i + |Keyword| < k < e <= |code|
    requires AllSpace(code[..i]) && code[i..i + |Keyword|] == Keyword && AllSpace(code[i + |Keyword|..k])
    requires NoSpace(code[k..e]) && (e == |code| || IsSpace(code[e]))
    ensures IsHeader(code, code[..i], code[i + |Keyword|..k], code[k..e], code[e..])
  {
    var j := i + |Keyword|;
    Reassemble(code, i, j, k, e);
    if e < |code| {
      assert code[e..][0] == code[e];
    }
  }

  /** The converse of HeaderBounds: these index facts determine the result. */
  lemma ResultOfBounds(code: string, i: nat, k: nat, e: nat)
    requires i + |Keyword| < k < e <= |code|
    requires forall x :: 0 <= x < i ==> IsSpace(code[x])
    requires OccursAt(code, Keyword, i)
    requires forall x :: i + |Keyword| <= x < k ==> IsSpace(code[x])
    requires forall x :: k <= x < e ==> IsNonSpace(code[x])
    requires e == |code| || IsSpace(code[e])
    ensures ExtractModuleName(code) == Ok(code[k..e])
  {
    assert code[i] == Keyword[0];
    SpanWhileUnique(IsSpace, code, 0, i);
    SpanWhileUnique(IsSpace, code, i + |Keyword|, k);
    SpanWhileUnique(IsNonSpace, code, k, e);
    assert NoSpace(code[k..e]);
    StripNoSpace(code[k..e]);
  }

  /** Every such header yields its name: the scan is complete and the name is
      the maximal run, punctuation included. */
  lemma ModuleNameComplete(lead: string, gap: string, name: string, rest: string)
    requires IsHeader(lead + Keyword + gap + name + rest, lead, gap, name, rest)
    ensures ExtractModuleName(lead + Keyword + gap + name + rest) == Ok(name)
  {
    var code := lead + Keyword + gap + name + rest;
    var i := |lead|;
    var j := i + |Keyword|;
    var k := j + |gap|;
    var e := k + |name|;
    assert code[..i] == lead && code[i..j] == Keyword && code[j..k] == gap;
    assert code[k..e] == name && code[e..] == rest;
    forall x | 0 <= x < i ensures IsSpace(code[x]) {
      assert code[x] == lead[x];
    }
    forall x | j <= x < k ensures IsSpace(code[x]) {
      assert code[x] == gap[x - j];
    }
    forall x | k <= x < e ensures IsNonSpace(code[x]) {
      assert code[x] == name[x - k];
    }
    if e < |code| {
      assert code[e] == rest[0];
    }
    ResultOfBounds(code, i, k, e);
  }

  /** Text whose first non-whitespace character cannot begin the keyword, such
      as a leading `//` comment, has no module name. */
  lemma NoKeywordFirst(lead: string, c: char, rest: string)
    requires AllSpace(lead) && !IsSpace(c) && c != 'm'
    ensures ExtractModuleName(lead + [c] + rest) == Err(ModuleNameNotFound)
  {
    var code := lead + [c] + rest;
    var i := |lead|;
    assert SpanWhile(IsSpace, code, 0) == i by {
      forall x | 0 <= x < i ensures IsSpace(code[x]) {
        assert code[x] == lead[x];
      }
      SpanWhileUnique(IsSpace, code, 0, i);
    }
    assert !OccursAt(code, Keyword, i) by {
      assert code[i] == c;
    }
  }

  /** The keyword glued to what follows it (`modulefoo`) has no module name. */
  lemma KeywordWithoutGap(lead: string, c: char, rest: string)
    requires AllSpace(lead) && !IsSpace(c)
    ensures ExtractModuleName(lead + Keyword + [c] + rest) == Err(ModuleNameNotFound)
  {
    var code := lead + Keyword + [c] + rest;
    var i := |lead|;
    var j := i + |Keyword|;
    assert SpanWhile(IsSpace, code, 0) == i by {
      forall x | 0 <= x < i ensures IsSpace(code[x]) {
        assert code[x] == lead[x];
      }
      assert code[i] == 'm';
      SpanWhileUnique(IsSpace, code, 0, i);
    }
    assert SpanWhile(IsSpace, code, j) == j by {
      assert code[j] == c;
      SpanWhileUnique(IsSpace, code, j, j);
    }
  }
}
